=== FILE: README.md ===
# agentic-chat: a Dafny model of the streaming agent

agentic-chat is a small Express server. It answers `POST /chat` with a
stream of server-sent events. The events show an agent thinking
(`reasoning`), calling a web-search tool (`tool_call`) and answering
(`response`). This project models the parts that decide what is on the
wire, and proves what they promise:

- **Types** (`types.dfy`): the `StreamEvent` union, tool calls and the
  chat request. Optional fields are `Option`s, and the three states of
  `output?: string | null` are kept apart.
- **Gemini** (`gemini.dfy`): the event sequencer `streamGeminiResponse`
  and the tool registry `functionDeclarations`. The generation backend is
  an input: a first turn scripted from the prompt, the continuation turn
  after the k-th search, and a search oracle. A turn is the chunks it
  delivers, optionally followed by a throw.
- **Tools** (`tools.dfy`): `serpApiSearch` and its alias `webSearch`. The
  environment key and the HTTP exchange are parameters. The answer
  becomes a listing, a "no results" sentence or an `Error ...` text.
- **Server** (`server.dfy`): the `/chat` handler. It applies the 400 gate,
  writes one `data: <json>` frame per event, and then writes either the
  `[DONE]` marker or one error frame.
- **Json** (`json.dfy`): `JSON.stringify` of the flat frame objects, with
  the escaping it does, plus a parser for that form.
- **Client** (`client.dfy`): the example client's frame decoding. It
  splits each read into lines, takes `data: ` lines, stops at `[DONE]`,
  parses and renders each event. JSON parsing is a parameter.
- **EndToEnd** (`endtoend.dfy`): the server's writes read back by the
  client.
- **Strings** (`strings.dfy`): the JavaScript string operations the
  program relies on. These are `trim` with its exact white-space set,
  `split` on one character, `startsWith`, and decimal rendering.

The model follows what the code does, including where a reader might
expect otherwise:

- A direct answer is streamed as `reasoning` chunks. The code then
  repeats the whole text once as a `response`, so the question "2+2?"
  yields `reasoning "4"` and then `response "4"`. This is
  `Gemini.DirectScenario`.
- A backend failure inside the sequencer's `try` is not an `error`
  event. It is a `response` whose content starts with `Error: `.
- Only a failure outside that `try` reaches the handler's `catch` and
  becomes the `{type: "error"}` frame. The missing `GEMINI_API_KEY` is
  such a failure.

## Model

| member | source | states |
|---|---|---|
| Gemini.Stream | src/gemini.ts:58-188 | The generator throws exactly when the Gemini key is missing. It then yields nothing, searches nothing, and the message names the missing `GEMINI_API_KEY`. |
| Gemini.FirstTurnThrows | src/gemini.ts:74-100 | When the first turn fails to start or breaks off while being drained, the run is the reasoning drained so far, then exactly one `Error: <message>` response. No call of that turn is acted on, nothing is searched, and the throw does not escape the generator. |
| Gemini.TextEvents | src/gemini.ts:83-93 | The events yielded while a turn is drained spell out the turn's whole accumulated text, `fullResponse`. |
| Gemini.TextEventsCarryChunks | src/gemini.ts:83-93 | There is one event per chunk with non-empty text, in chunk order, and each carries that chunk's text. Empty chunks yield nothing. |
| Gemini.HasTextIffText | src/gemini.ts:78-87 | `hasText` is set exactly when the accumulated text is non-empty. |
| Gemini.SearchInput | src/gemini.ts:119-120 | The search input is never empty. It is `query` when truthy, else `searchQuery` when truthy, else the JSON text of the whole argument record. |
| Gemini.IntroIffBlank | src/gemini.ts:104-112 | The fixed "I need to search..." reasoning is yielded, once, exactly when the first turn's text trims to nothing. |
| Gemini.ToolLoopSearches | src/gemini.ts:114-164 | The loop searches a prefix of the `web_search` inputs, in call order. For each search it yields the pending `tool_call` (output null), the completed one, and then that continuation's text as responses. |
| Gemini.FirstFailureMeaning | src/gemini.ts:152-162 | FirstFailure finds the first continuation that throws. All continuations before it answer, and it reaches the bound exactly when none throws. |
| Gemini.ToolLoopFault | src/gemini.ts:114-164 | The loop stops at the first continuation that throws, after that search's events. It reports that throw, and it has searched exactly up to and including it. |
| Gemini.OtherCallsIgnored | src/gemini.ts:114-118 | Calls to functions other than `web_search` change nothing: the loop over only the `web_search` calls gives the same events, searches and throw. |
| Gemini.ContinuationCallsIgnored | src/gemini.ts:152-162 | Function calls that a continuation turn asks for are never acted on: dropping them from every continuation changes nothing. |
| Gemini.DecideToolEvents | src/gemini.ts:103-178 | After a clean first turn, the `tool_call` events are exactly a pending and a completed event for each search done, in order. |
| Gemini.SearchesMatchToolEvents | src/gemini.ts:58-188 | In every run, whatever fails, the `tool_call` events are exactly one pending and one completed event per search the run made, in order. The completed event carries the tool's answer. |
| Gemini.StreamToolsRegistered | src/gemini.ts:36-53 | Every `tool_call` a run yields names a function of the registry advertised to the backend. |
| Gemini.DecideToolPath | src/gemini.ts:103-164 | For a first turn with calls, the events are the intro when the text was blank, then the blocks of the searches up to the first throwing continuation. The throw, if any, is handed to the `catch`. |
| Gemini.ToolPath | src/gemini.ts:58-188 | With tool calls in a clean first turn, a run is the streamed reasoning, then the intro if the text was blank, then one block per search up to the first failure, then one `Error: ` response if a continuation threw. |
| Gemini.DirectAnswer | src/gemini.ts:165-170 | Without calls and with text, a run is the streamed reasoning followed by one response that repeats the whole text, and it makes no search. |
| Gemini.SilentTurn | src/gemini.ts:171-178 | A first turn with neither text nor calls yields only the fixed apology response. |
| Gemini.NoCallsOneResponse | src/gemini.ts:165-178 | Without calls, a run is always the streamed reasoning followed by exactly one response: the sequencer's last, empty `else` cannot happen. |
| Gemini.DirectScenario | src/gemini.ts:83-170 | A question answered without the web yields the chunk text as reasoning, then the same text as the response. |
| Gemini.SearchScenario | src/gemini.ts:103-162 | A question that needs the web yields the intro, the pending and the completed `tool_call`, and then the continuation's answer, in that order. |
| Tools.SerpApiSearch | src/tools.ts:15-83 | A request is sent exactly when the key is truthy, and it carries that key and the query. Without a key the text is the missing-key message. With one, the text follows the outcome: the formatted answer for received data, the status text for an error response, and the generic failure text when there is no response. The text is never empty. |
| Tools.WebSearch | src/tools.ts:7-9 | `webSearch` is the same search under its exported name, and its text is never empty. |
| Tools.RequestSent | src/tools.ts:18-31 | Without a key, no request is sent and the text names the missing `SERPAPI_KEY`. With one, the GET asks SerpAPI's Google engine for five results of the query, with a 15 000 ms timeout. |
| Tools.Shown | src/tools.ts:38 | The listed results are the first ones, in order: the whole list when it has five or fewer, exactly the first five otherwise. |
| Tools.BuildEntries | src/tools.ts:37-47 | Appending one numbered entry per shown result, as the `forEach` does, builds exactly the listing of the first five results, numbered from 1. |
| Tools.EntriesAppend | src/tools.ts:38-46 | One more result adds one entry at the end, numbered after all the others. |
| Tools.Format | src/tools.ts:34-73 | The text of a successful answer has no white space at either end. |
| Tools.NoResultsExact | src/tools.ts:69-73 | With nothing to show, the text is exactly `No search results found for: "<query>"`. |
| Tools.ListingKeepsHeader | src/tools.ts:34-73 | With something to show, the text starts with `Search results for "<query>":`. Trimming never eats into the header. |
| Tools.OrganicWins | src/tools.ts:37-48 | When there are organic results, the answer box and the knowledge graph make no difference. |
| Tools.AnswerBoxBeforeGraph | src/tools.ts:48-60 | Without organic results, an answer box wins and the knowledge graph makes no difference. |
| Tools.GraphWhenNothingElse | src/tools.ts:60-68 | Without organic results or an answer box, a knowledge graph is listed under the header naming the query, and is not reported as "no results". A truthy title is its first line, followed by the description. |
| Tools.FirstFive | src/tools.ts:38 | Results after the fifth never change the text. |
| Tools.UntitledEntry | src/tools.ts:39 | An entry with an empty or missing title reads exactly like one titled "No title". |
| Tools.StatusTextSource | src/tools.ts:76-79 | An error response reports the body's `error` when it is truthy, else the transport's message. An empty `error` counts as none. |
| Tools.FailuresStartWithErrorWord | src/tools.ts:18-82 | The missing-key text, the error-status text and the generic failure text all start with "Error". |
| Tools.FormatNotErrorWord | src/tools.ts:34-73 | No successful answer starts with "Error". |
| Tools.FailureIffErrorWord | src/tools.ts:15-83 | The text starts with "Error" exactly when the search failed: no key, an error response, or no response at all. |
| Json.DecodeEncode | src/index.ts:52 | Reading back the JSON text written for a frame object gives that object. |
| Json.EncodeInjective | src/index.ts:52 | Different frame objects are written as different texts. |
| Json.EncodeShape | src/index.ts:52-53 | The JSON text of a frame object is one line, opening with `{` and closing with `}`. |
| Server.Handle | src/index.ts:31-53 | A request is rejected exactly when `query` is missing, empty or not a string, with status 400 and the fixed message. Otherwise the four event-stream headers are set and at least one write follows. |
| Server.EventFrames | src/index.ts:50-53 | There is one `data: <json>` frame per event, in event order. |
| Server.HandleWrites | src/index.ts:49-74 | An accepted request writes one frame per event, in order, then one last write. That write is `[DONE]` exactly when the generator finished, and the `Streaming error: ` frame with the thrown message when it threw. |
| Server.FrameIsNotDone | src/index.ts:52-62 | No event frame can be mistaken for the end marker. |
| Server.DoneOnlyLast | src/index.ts:61-62 | The end marker is written at most once, only as the last write, and only when the generator ran to completion. |
| Server.MissingKeyReply | src/index.ts:64-73 | Without the Gemini key, the request still streams, and its only write is the error frame naming the missing key. |
| Client.Preview | example-client.js:58 | The preview is a prefix of the output: the whole output when it has at most 200 characters, exactly the first 200 otherwise. |
| Client.Classify | example-client.js:36-41 | A line is passed over exactly when it lacks the `data: ` prefix. Data handed on is trimmed and is never the end marker. |
| Client.OtherLinesIgnored | example-client.js:35-36 | A line without the `data: ` prefix changes nothing in what is read. |
| Client.DoneStops | example-client.js:39-41 | The end marker ends the reading: nothing after it is parsed or shown. |
| Client.BadDataSkipped | example-client.js:67-72 | A data line that does not parse yields no event. Its text is shown raw unless it is empty, and reading goes on. |
| Client.ReadLinesAppend | example-client.js:35-72 | Reading lines `a + b` gives the reading of `a` followed by that of `b`, with nothing after an end marker counting. |
| Client.WholeReadsAsWritten | example-client.js:24-35 | When every read ends a line, the reader as written reads the stream exactly as if it came in one piece. |
| Client.SplitMarkerMissed | example-client.js:32-41 | As written, `[DONE]` cut by a read boundary is not seen: its first half is shown raw and reading goes on. Read whole, the same text ends the reading. |
| Client.BufferedReadsWhole | example-client.js:24-35 | A reader that carries the unfinished last line into the next read reads any division of the stream into reads as the whole text. |
| Client.PendingShownRawAsWritten | example-client.js:50-72 | As written, a `tool_call` with a null output prints the tool header and then the raw data line, because the preview throws. |
| Client.CorrectedToolRendering | example-client.js:50-60 | With a falsy-output check, a `tool_call` without an output shows as searching, and one with an output shows its preview. |
| Client.RenderersAgree | example-client.js:46-66 | The two renderings differ only on `tool_call` events whose output is not a string. |
| EndToEnd.DecodeInverts | src/index.ts:52 | The JSON reader of this model reads back every object the server encodes. |
| EndToEnd.ClientSeesRun | example-client.js:24-72 | The client reading all of the handler's writes gets exactly the run's objects, in order. It shows each as its JSON text dictates, and sees the end marker exactly when the generator completed. |
| EndToEnd.ChunkPerWrite | example-client.js:32-35 | The same holds for the reader as written when each write arrives as a read of its own. |
| EndToEnd.AnyChunksBuffered | example-client.js:32-35 | The same holds for a buffering reader, however the writes are cut into reads. |
| EndToEnd.SearchShowsRawAsWritten | example-client.js:50-72 | As written, every run that searches makes the client print raw JSON, because of the pending `tool_call` (output null). |
| EndToEnd.CorrectedShowsNoRaw | example-client.js:50-72 | With the falsy-output check, nothing the server sends is ever shown raw. |
| EndToEnd.ToolOutputsNonEmpty | src/gemini.ts:123-140 | With the search tool plugged in, every `tool_call` a run yields is either pending or carries a non-empty output. |
| Strings.TrimBlank | example-client.js:37 | Trimming leaves nothing exactly when the string is all white space. |
| Strings.SplitJoin | example-client.js:33 | Splitting loses nothing: the pieces joined back with the separator give the string, and no piece holds the separator. |
| Strings.NatToStringRoundTrip | src/tools.ts:39 | The decimal rendering of a number reads back as that number. |

## Left out

- The Gemini SDK, axios, `fetch`, `TextDecoder` and `console` are not modelled. Each becomes a parameter (the backend turns, the search oracle, the HTTP outcome, the reads) or is dropped (logging).
- The `getGenAI` singleton and the model configuration (name, temperature, token limits) are left out. They do not change which events are yielded. Only the missing-key throw is kept.
- The `history` parameter is left out. The handler never passes it.
- The function response sent back to the backend after a search is left out. Its effect is the continuation turn, which is an input.
- Tool-call argument values are modelled as strings only. Other JSON values under `query` or `searchQuery` are left out.
- Gemini.Backend: the search oracle is a function of the query. Two identical searches in one run therefore get the same text, while a live SerpAPI may answer them differently. No proved property compares two searches.
- Types.Get: an argument record is a list of key-value pairs, and a repeated key reads as its first occurrence. The backend's argument object cannot repeat a key, so that case does not arise in the program. `JSON.parse` would keep the last occurrence instead.
- Client.Step: the parser's result is a frame object or nothing. Text that is valid JSON but not a frame object is therefore shown raw, like text that does not parse. Examples are `{"type":"foo"}`, `42` and `"str"`. The client prints most such values through its `default:` case as `📦 Event: …` (example-client.js:64-65). The server never writes such a frame, so nothing the end-to-end theorems cover is affected.
- `JSON.parse` in the client is a parameter. The end-to-end theorems require only that it reads back what the server writes. `Json.Decode` is one such parser, but it does not accept all of JSON.
- Strings are sequences of characters. UTF-16 code units, `substring` on surrogate pairs, and a multi-byte character cut by a read boundary are left out.
- The handler's outer `catch` and its 500 reply (src/index.ts:75-84) are left out. Nothing modelled before the headers can throw.
- A generator throw whose value is not an `Error` (the "Unknown error" text) is left out. The only throw that can escape the sequencer is the missing key, which is an `Error`.
- CORS, `/health`, `res.flush`, `res.end` and the HTTP status of a stream are left out. They carry no data.
- The client's `!response.ok` check and its request (example-client.js:1-20) are left out. The model starts at the body reader.
- Malformed SerpAPI answers (a non-array `organic_results`, non-string fields) are left out. The answer is a record of optional strings.
- Client.WholeReadsAsWritten: it is stated for any line handler that passes over the empty line, not just the client's. The client's own handler is covered through `Client.BlankLineIgnored`.
- Client.Classify: its contract states neither the trimmed data nor the end-marker decision as a function of the line. `EndToEnd.PrefixedLineClassified` states the data for the lines the server writes. `Client.DoneLineEnds` and `Client.DoneStops` state that the marker line ends the reading, and `EndToEnd.ClientSeesRun` states it for the server's writes.

## Findings

| source | as written | input that shows it | evidently intended | confidence | as-written member | corrected member |
|---|---|---|---|---|---|---|
| example-client.js:51-58 | The pending check is `event.output === ''`, but the server's pending `tool_call` carries `output: null` (src/gemini.ts:123-128). The else branch then calls `substring` on null, which throws, and the `catch` prints the event as raw data. | Any query whose first turn calls `web_search`, e.g. the pending frame `{"type":"tool_call","tool":"web_search","input":"weather in Paris","output":null}` | A falsy-output check, so that a null or missing output shows "Searching..." | not executed | Client.PendingShownRawAsWritten, EndToEnd.SearchShowsRawAsWritten | Client.CorrectedToolRendering, EndToEnd.CorrectedShowsNoRaw |
| example-client.js:32-33 | Each read is split into lines on its own. A line cut by a read boundary becomes two lines, and neither is the original. | The reads `data: [DO` and `NE]\n\n`: the first half is printed raw and `[DONE]` is never seen | Carry the unfinished last line of a read into the next read | not executed | Client.SplitMarkerMissed | Client.BufferedReadsWhole, EndToEnd.AnyChunksBuffered |

=== FILE: client.dfy ===
/** The example client's reader: it splits what each read delivers into
    lines, takes the `data: ` lines, stops at `[DONE]`, parses the rest as
    JSON and shows each event. JSON parsing is a parameter; `Json.Decode`
    is one instance of it.

    Two behaviours of the reader as written are modelled next to a
    corrected version: the pending `tool_call` check, and lines split
    across two reads. */
module Client {
  import opened Types
  import Strings
  import Json
  import opened Wire

  const PreviewLength: nat := 200

  /** What the client prints for one event. `ToolHeader` stands for the
      two lines naming the tool and its input; every other item is one
      `console.log` or `process.stdout.write`. */
  datatype Display =
    | ReasoningText(content: Option<string>)
    | ToolHeader(tool: Option<string>, input: Option<string>)
    | Searching
    | ToolOutput(preview: string)
    | ResponseText(content: Option<string>)
    | OtherEvent(w: WireEvent)
    | RawData(data: string)

  /** What one line is to the reader. */
  datatype LineKind = Ignored | Done | Data(data: string)

  /** Everything a read of the stream produced: the events parsed, what was
      shown, and whether the end marker was seen. */
  datatype Session = Session(events: seq<WireEvent>, shown: seq<Display>, sawDone: bool)

  /** Which rendering of `tool_call` events is used. */
  datatype Renderer = AsWritten | Corrected

  /** `output.substring(0, 200)`. */
  function Preview(s: string): (p: string)
    ensures |p| <= |s| && |p| <= PreviewLength && p == s[..|p|]
    ensures |s| <= PreviewLength ==> p == s
    ensures |s| > PreviewLength ==> p == s[..PreviewLength]
  {
    if |s| <= PreviewLength then s else s[..PreviewLength]
  }

  /** A line that starts with `data: ` carries the trimmed rest of the line;
      the marker ends the stream; any other line is passed over. */
  function Classify(line: string): (k: LineKind)
    ensures k.Data? ==> Strings.Trimmed(k.data) && k.data != DoneMarker
    ensures !Strings.StartsWith(line, DataPrefix) <==> k.Ignored?
  {
    if !Strings.StartsWith(line, DataPrefix) then Ignored
    else
      var data := Strings.Trim(line[|DataPrefix|..]);
      if data == DoneMarker then Done else Data(data)
  }

  /** The `tool_call` case as written: the pending branch is taken only for
      an empty-string output; for a `null` or missing output the preview
      throws after the two header lines, and the `catch` prints the raw
      data. */
  function ToolAsWritten(e: StreamEvent, data: string): seq<Display> {
    var header := ToolHeader(e.tool, e.input);
    match e.output
    case Text(s) => if s == "" then [header, Searching] else [header, ToolOutput(Preview(s))]
    case Null => [header, RawData(data)]
    case Absent => [header, RawData(data)]
  }

  /** The `tool_call` case with a falsy-output check: `null`, a missing
      output and the empty string all mean the search is pending. */
  function ToolCorrected(e: StreamEvent): seq<Display> {
    var header := ToolHeader(e.tool, e.input);
    match e.output
    case Text(s) => if s == "" then [header, Searching] else [header, ToolOutput(Preview(s))]
    case Null => [header, Searching]
    case Absent => [header, Searching]
  }

  /** The `switch` on the event type. */
  function Render(mode: Renderer, w: WireEvent, data: string): seq<Display> {
    match w
    case ErrorEvent(_) => [OtherEvent(w)]
    case Event(e) =>
      match e.kind
      case Reasoning => [ReasoningText(e.content)]
      case Response => [ResponseText(e.content)]
      case ToolInvocation => if mode == AsWritten then ToolAsWritten(e, data) else ToolCorrected(e)
  }

  /** One line as a session of its own: nothing for a line the reader does
      not take, the end for the marker, and for a data line its parsed event
      and what it shows; text that does not parse is shown raw unless it is
      empty. */
  function Step(line: string, mode: Renderer, parse: string -> Option<WireEvent>): Session {
    match Classify(line)
    case Ignored => Session([], [], false)
    case Done => Session([], [], true)
    case Data(d) =>
      match parse(d)
      case Some(w) => Session([w], Render(mode, w, d), false)
      case None => Session([], if d != "" then [RawData(d)] else [], false)
  }

  /** The reader's handling of one line, for a renderer and a JSON parser. */
  function Reader(mode: Renderer, parse: string -> Option<WireEvent>): string -> Session {
    line => Step(line, mode, parse)
  }

  /** The lines of one read, in order, up to the end marker, each handled
      by `step`. */
  function ReadLines(lines: seq<string>, step: string -> Session): Session
    decreases |lines|
  {
    if lines == [] then Session([], [], false)
    else Then(step(lines[0]), ReadLines(lines[1..], step))
  }

  /** A session followed by another: nothing after the end marker counts. */
  function Then(a: Session, b: Session): Session {
    if a.sawDone then a else Session(a.events + b.events, a.shown + b.shown, b.sawDone)
  }

  /** The reader as written: each read is split into lines on its own, so a
      line cut by a read boundary is seen as two lines. */
  function ReadChunks(chunks: seq<string>, step: string -> Session): Session
    decreases |chunks|
  {
    if chunks == [] then Session([], [], false)
    else Then(ReadLines(Strings.Split(chunks[0], '\n'), step), ReadChunks(chunks[1..], step))
  }

  /** A reader that keeps the unfinished last line of a read and prepends it
      to the next read; what is left when the stream ends is read last. */
  function ReadBuffered(pending: string, chunks: seq<string>, step: string -> Session): Session
    decreases |chunks|
  {
    if chunks == [] then ReadLines(Strings.Split(pending, '\n'), step)
    else
      var pieces := Strings.Split(pending + chunks[0], '\n');
      Then(ReadLines(pieces[..|pieces| - 1], step),
           ReadBuffered(pieces[|pieces| - 1], chunks[1..], step))
  }

  /** The whole text of the stream read at once. */
  function ReadText(text: string, step: string -> Session): Session {
    ReadLines(Strings.Split(text, '\n'), step)
  }

  // ------------------------------------------------------------------ lemmas

  lemma ThenEmpty(a: Session)
    requires !a.sawDone
    ensures Then(a, Session([], [], false)) == a
  {
  }

  lemma EmptyThen(b: Session)
    ensures Then(Session([], [], false), b) == b
  {
  }

  lemma ThenAssoc(a: Session, b: Session, c: Session)
    ensures Then(Then(a, b), c) == Then(a, Then(b, c))
  {
    if !a.sawDone && !b.sawDone {
      assert a.events + b.events + c.events == a.events + (b.events + c.events);
      assert a.shown + b.shown + c.shown == a.shown + (b.shown + c.shown);
    }
  }

  lemma ReadLinesCons(lines: seq<string>, step: string -> Session)
    requires lines != []
    ensures ReadLines(lines, step) == Then(step(lines[0]), ReadLines(lines[1..], step))
  {
  }

  /** Reading lines is a homomorphism: the lines of `a + b` read as `a`
      then `b`, and nothing after an end marker in `a` is read. */
  lemma {:induction false} ReadLinesAppend(a: seq<string>, b: seq<string>, step: string -> Session)
    ensures ReadLines(a + b, step) == Then(ReadLines(a, step), ReadLines(b, step))
    decreases |a|
  {
    if a == [] {
      assert a + b == b;
      EmptyThen(ReadLines(b, step));
    } else {
      assert (a + b)[0] == a[0] && (a + b)[1..] == a[1..] + b;
      ReadLinesAppend(a[1..], b, step);
      ThenAssoc(step(a[0]), ReadLines(a[1..], step), ReadLines(b, step));
    }
  }

  /** Lines the reader does not take (no `data: ` prefix) change nothing. */
  lemma OtherLinesIgnored(line: string, rest: seq<string>, mode: Renderer, parse: string -> Option<WireEvent>)
    requires !Strings.StartsWith(line, DataPrefix)
    ensures ReadLines([line] + rest, Reader(mode, parse)) == ReadLines(rest, Reader(mode, parse))
  {
    assert ([line] + rest)[1..] == rest;
  }

  /** The end marker stops the reader: nothing after it is parsed or shown. */
  lemma DoneStops(before: seq<string>, after: seq<string>, mode: Renderer, parse: string -> Option<WireEvent>)
    requires forall i :: 0 <= i < |before| ==> !Classify(before[i]).Done?
    ensures ReadLines(before + [DataPrefix + DoneMarker] + after, Reader(mode, parse))
         == Then(ReadLines(before, Reader(mode, parse)), Session([], [], true))
    ensures !ReadLines(before, Reader(mode, parse)).sawDone
  {
    NoDoneNoStop(before, mode, parse);
    DoneLineEnds(mode, parse);
    StopsAt(before, DataPrefix + DoneMarker, after, Reader(mode, parse));
  }

  /** Whatever follows a line that ends the reading is not read. */
  lemma StopsAt(before: seq<string>, line: string, after: seq<string>, step: string -> Session)
    requires step(line).sawDone
    ensures ReadLines(before + [line] + after, step) == Then(ReadLines(before, step), step(line))
  {
    EndedLines([line] + after, step);
    ReadLinesAppend(before, [line] + after, step);
    assert before + [line] + after == before + ([line] + after);
  }

  /** The marker line ends the reading. */
  lemma DoneLineEnds(mode: Renderer, parse: string -> Option<WireEvent>)
    ensures Reader(mode, parse)(DataPrefix + DoneMarker) == Session([], [], true)
  {
    var line := DataPrefix + DoneMarker;
    assert line[|DataPrefix|..] == DoneMarker;
    assert Strings.Trimmed(DoneMarker);
    Strings.TrimOfTrimmed(DoneMarker);
    assert Classify(line) == Done;
  }

  /** Lines whose first ends the reading read as that line alone. */
  lemma EndedLines(lines: seq<string>, step: string -> Session)
    requires lines != [] && step(lines[0]).sawDone
    ensures ReadLines(lines, step) == step(lines[0])
  {
    ReadLinesCons(lines, step);
  }

  lemma {:induction false} NoDoneNoStop(lines: seq<string>, mode: Renderer, parse: string -> Option<WireEvent>)
    requires forall i :: 0 <= i < |lines| ==> !Classify(lines[i]).Done?
    ensures !ReadLines(lines, Reader(mode, parse)).sawDone
    decreases |lines|
  {
    if lines != [] {
      assert !Classify(lines[0]).Done?;
      NoDoneNoStop(lines[1..], mode, parse);
    }
  }

  /** A data line that does not parse yields no event; its text is shown raw
      when it is not empty, and the reader goes on. */
  lemma BadDataSkipped(line: string, rest: seq<string>, mode: Renderer, parse: string -> Option<WireEvent>)
    requires Classify(line).Data? && parse(Classify(line).data).None?
    ensures
      var d := Classify(line).data;
      var r := ReadLines(rest, Reader(mode, parse));
      ReadLines([line] + rest, Reader(mode, parse))
        == Session(r.events, (if d != "" then [RawData(d)] else []) + r.shown, r.sawDone)
  {
    BadLineStep(line, mode, parse);
    FirstLine(line, rest, Reader(mode, parse));
  }

  lemma BadLineStep(line: string, mode: Renderer, parse: string -> Option<WireEvent>)
    requires Classify(line).Data? && parse(Classify(line).data).None?
    ensures
      var d := Classify(line).data;
      Reader(mode, parse)(line) == Session([], if d != "" then [RawData(d)] else [], false)
  {
  }

  lemma FirstLine(line: string, rest: seq<string>, step: string -> Session)
    ensures ReadLines([line] + rest, step) == Then(step(line), ReadLines(rest, step))
  {
    ReadLinesCons([line] + rest, step);
    assert ([line] + rest)[0] == line && ([line] + rest)[1..] == rest;
  }

  // ----------------------------------------------------------- line buffering

  /** The buffered reader reads any division of the stream into reads as
      it would read the whole text at once, whatever it does with a line. */
  lemma {:induction false} BufferedReadsWhole(pending: string, chunks: seq<string>, step: string -> Session)
    ensures ReadBuffered(pending, chunks, step) == ReadText(pending + Strings.Concat(chunks), step)
    decreases |chunks|
  {
    if chunks == [] {
      assert pending + Strings.Concat(chunks) == pending;
    } else {
      var s := pending + chunks[0];
      var t := Strings.Concat(chunks[1..]);
      var pieces := Strings.Split(s, '\n');
      var init, last := pieces[..|pieces| - 1], pieces[|pieces| - 1];
      var rest := Strings.Split(last + t, '\n');
      assert pending + Strings.Concat(chunks) == s + t by {
        assert Strings.Concat(chunks) == chunks[0] + t;
      }
      assert Strings.Split(s + t, '\n') == init + rest by {
        Strings.SplitAppend(s, t, '\n');
      }
      calc {
        ReadText(pending + Strings.Concat(chunks), step);
        ReadLines(init + rest, step);
        { ReadLinesAppend(init, rest, step); }
        Then(ReadLines(init, step), ReadLines(rest, step));
        { BufferedReadsWhole(last, chunks[1..], step); }
        Then(ReadLines(init, step), ReadBuffered(last, chunks[1..], step));
      }
    }
  }

  /** The reader passes over the empty line. */
  lemma BlankLineIgnored(mode: Renderer, parse: string -> Option<WireEvent>)
    ensures Reader(mode, parse)("") == Session([], [], false)
  {
    assert !Strings.StartsWith("", DataPrefix);
  }

  lemma BlankLineRead(step: string -> Session)
    requires step("") == Session([], [], false)
    ensures ReadLines([""], step) == Session([], [], false)
  {
    assert [""][1..] == [];
  }

  /** A read that ends a line is read the same by both readers: its last
      piece is empty, and the empty line is passed over. */
  lemma WholeLinesRead(chunk: string, step: string -> Session)
    requires chunk != [] && chunk[|chunk| - 1] == '\n'
    requires step("") == Session([], [], false)
    ensures
      var p := Strings.Split(chunk, '\n');
      p[|p| - 1] == "" && ReadLines(p, step) == ReadLines(p[..|p| - 1], step)
  {
    var x := chunk[..|chunk| - 1];
    assert chunk == x + ['\n'];
    var px := Strings.Split(x, '\n');
    var p := Strings.Split(chunk, '\n');
    assert p == px + [""] by {
      Strings.SplitTrailing(x, '\n');
    }
    assert p[..|p| - 1] == px;
    ReadLinesAppend(px, [""], step);
    BlankLineRead(step);
    if !ReadLines(px, step).sawDone {
      ThenEmpty(ReadLines(px, step));
    }
  }

  /** When every read ends a line, the reader as written reads the stream
      as the whole text. */
  lemma {:induction false} WholeReadsAsWritten(chunks: seq<string>, step: string -> Session)
    requires forall i :: 0 <= i < |chunks| ==> chunks[i] != [] && chunks[i][|chunks[i]| - 1] == '\n'
    requires step("") == Session([], [], false)
    ensures ReadChunks(chunks, step) == ReadText(Strings.Concat(chunks), step)
    decreases |chunks|
  {
    if chunks == [] {
      assert Strings.Split("", '\n') == [""];
      BlankLineRead(step);
    } else {
      var c := chunks[0];
      var t := Strings.Concat(chunks[1..]);
      var p := Strings.Split(c, '\n');
      var init := p[..|p| - 1];
      assert Strings.Concat(chunks) == c + t;
      assert ReadLines(p, step) == ReadLines(init, step) && p[|p| - 1] == "" by {
        WholeLinesRead(c, step);
      }
      assert Strings.Split(c + t, '\n') == init + Strings.Split(t, '\n') by {
        Strings.SplitAppend(c, t, '\n');
        assert p[|p| - 1] + t == t;
      }
      calc {
        ReadChunks(chunks, step);
        { ReadChunksCons(chunks, step); }
        Then(ReadLines(p, step), ReadChunks(chunks[1..], step));
        { WholeReadsAsWritten(chunks[1..], step); }
        Then(ReadLines(init, step), ReadText(t, step));
        { ReadLinesAppend(init, Strings.Split(t, '\n'), step); }
        ReadLines(init + Strings.Split(t, '\n'), step);
        ReadText(Strings.Concat(chunks), step);
      }
    }
  }

  /** The end marker cut by a read boundary, as written: the first half is
      shown raw (no JSON parser accepts `[DO`), the second half is passed
      over, and the end is never seen, while the whole text holds the
      marker. */
  lemma SplitMarkerMissed(a: string, b: string, parse: string -> Option<WireEvent>)
    requires a == "data: [DO" && b == "NE]\n\n" && parse("[DO").None?
    ensures ReadChunks([a, b], Reader(AsWritten, parse)) == Session([], [RawData("[DO")], false)
    ensures ReadText(a + b, Reader(AsWritten, parse)).sawDone
  {
    var step := Reader(AsWritten, parse);
    FirstHalfShownRaw(a, parse);
    SecondHalfPassedOver(b, parse);
    ReadTwoChunks([a, b], a, b, step);
    WholeMarkerSeen(a + b, parse);
  }

  lemma FirstHalfShownRaw(a: string, parse: string -> Option<WireEvent>)
    requires a == "data: [DO" && parse("[DO").None?
    ensures ReadLines(Strings.Split(a, '\n'), Reader(AsWritten, parse)) == Session([], [RawData("[DO")], false)
  {
    var step := Reader(AsWritten, parse);
    var shown := Session([], [RawData("[DO")], false);
    assert step(a) == shown by {
      FirstHalfClassified(a);
      BadDataStep(a, "[DO", AsWritten, parse);
    }
    FirstHalfOneLine(a);
    LoneLineRead(Strings.Split(a, '\n'), a, shown, step);
  }

  lemma SecondHalfPassedOver(b: string, parse: string -> Option<WireEvent>)
    requires b == "NE]\n\n"
    ensures ReadLines(Strings.Split(b, '\n'), Reader(AsWritten, parse)) == Session([], [], false)
  {
    var step := Reader(AsWritten, parse);
    BlankLineIgnored(AsWritten, parse);
    assert step("NE]") == Session([], [], false) by {
      assert !Strings.StartsWith("NE]", DataPrefix);
    }
    SecondHalfIgnored(b, step);
  }

  /** Two reads are read as the lines of the first, then those of the second. */
  lemma ReadTwoChunks(chunks: seq<string>, a: string, b: string, step: string -> Session)
    requires chunks == [a, b]
    ensures ReadChunks(chunks, step)
         == Then(ReadLines(Strings.Split(a, '\n'), step),
                 Then(ReadLines(Strings.Split(b, '\n'), step), Session([], [], false)))
  {
    assert chunks[0] == a && chunks[1..] == [b];
    ReadChunksCons(chunks, step);
    ReadOneChunk(chunks[1..], b, step);
  }

  lemma ReadOneChunk(chunks: seq<string>, b: string, step: string -> Session)
    requires chunks == [b]
    ensures ReadChunks(chunks, step) == Then(ReadLines(Strings.Split(b, '\n'), step), Session([], [], false))
  {
    assert chunks[0] == b && chunks[1..] == [];
  }

  lemma ReadChunksCons(chunks: seq<string>, step: string -> Session)
    requires chunks != []
    ensures ReadChunks(chunks, step) == Then(ReadLines(Strings.Split(chunks[0], '\n'), step), ReadChunks(chunks[1..], step))
  {
  }

  /** A lone line that does not end the stream is read as its own session. */
  lemma LoneLineRead(lines: seq<string>, a: string, s: Session, step: string -> Session)
    requires lines == [a] && step(a) == s && !s.sawDone
    ensures ReadLines(lines, step) == s
  {
    assert lines[0] == a && lines[1..] == [];
    ReadLinesCons(lines, step);
    ThenEmpty(s);
  }

  lemma FirstHalfClassified(a: string)
    requires a == "data: [DO"
    ensures Classify(a) == Data("[DO")
  {
    assert a[..|DataPrefix|] == DataPrefix && a[|DataPrefix|..] == "[DO";
    Strings.TrimOfTrimmed("[DO");
  }

  lemma FirstHalfOneLine(a: string)
    requires a == "data: [DO"
    ensures Strings.Split(a, '\n') == [a]
  {
    Strings.SplitSingle(a, '\n');
  }

  /** A data line whose text does not parse shows that text raw. */
  lemma BadDataStep(line: string, d: string, mode: Renderer, parse: string -> Option<WireEvent>)
    requires Classify(line) == Data(d) && parse(d).None? && d != ""
    ensures Reader(mode, parse)(line) == Session([], [RawData(d)], false)
  {
  }

  /** A data line whose text parses yields its event and what it shows. */
  lemma GoodDataStep(line: string, d: string, w: WireEvent, mode: Renderer, parse: string -> Option<WireEvent>)
    requires Classify(line) == Data(d) && parse(d) == Some(w)
    ensures Reader(mode, parse)(line) == Session([w], Render(mode, w, d), false)
  {
  }

  /** The second half, `NE]` and two line breaks, holds no data line. */
  lemma SecondHalfIgnored(b: string, step: string -> Session)
    requires b == "NE]\n\n"
    requires step("NE]") == Session([], [], false) && step("") == Session([], [], false)
    ensures ReadLines(Strings.Split(b, '\n'), step) == Session([], [], false)
  {
    var x := "NE]";
    var nl := "\n";
    assert b == x + ['\n'] + nl;
    assert nl == "" + ['\n'] + "";
    Strings.SplitAt(x, '\n', nl);
    Strings.SplitAt("", '\n', "");
    assert Strings.Split(b, '\n') == [x] + [""] + [""];
    BlankLineRead(step);
    ReadLinesAppend([x] + [""], [""], step);
    ReadLinesAppend([x], [""], step);
    assert ReadLines([x], step) == Session([], [], false) by {
      assert [x][1..] == [];
    }
  }

  lemma WholeMarkerSeen(s: string, parse: string -> Option<WireEvent>)
    requires s == "data: [DONE]\n\n"
    ensures ReadText(s, Reader(AsWritten, parse)).sawDone
  {
    var line := DataPrefix + DoneMarker;
    assert s == line + ['\n'] + "\n";
    Strings.SplitAt(line, '\n', "\n");
    DoneStops([], Strings.Split("\n", '\n'), AsWritten, parse);
    assert [] + [line] + Strings.Split("\n", '\n') == [line] + Strings.Split("\n", '\n');
  }

  // -------------------------------------------------------- pending tool calls

  /** As written, the pending `tool_call` the server sends before a search
      (output `null`) is never shown as pending: the raw data follows its
      header instead. */
  lemma PendingShownRawAsWritten(tool: string, input: string, data: string)
    ensures Render(AsWritten, Event(ToolEvent(tool, input, Null)), data)
         == [ToolHeader(Some(tool), Some(input)), RawData(data)]
  {
  }

  /** With the falsy-output check, every `tool_call` without an output shows
      as pending, one with an output shows its preview, and no event of the
      union is ever shown raw. */
  lemma CorrectedToolRendering(e: StreamEvent, data: string)
    requires e.kind == ToolInvocation
    ensures
      var shown := Render(Corrected, Event(e), data);
      && (e.output.Text? && e.output.value != "" ==>
            shown == [ToolHeader(e.tool, e.input), ToolOutput(Preview(e.output.value))])
      && (!(e.output.Text? && e.output.value != "") ==>
            shown == [ToolHeader(e.tool, e.input), Searching])
  {
  }

  lemma CorrectedNeverRaw(e: StreamEvent, data: string)
    ensures forall i :: 0 <= i < |Render(Corrected, Event(e), data)| ==> !Render(Corrected, Event(e), data)[i].RawData?
  {
  }

  /** The two renderings differ only on `tool_call` events whose output is
      `null` or missing. */
  lemma RenderersAgree(w: WireEvent, data: string)
    requires !(w.Event? && w.event.kind == ToolInvocation && !w.event.output.Text?)
    ensures Render(AsWritten, w, data) == Render(Corrected, w, data)
  {
  }
}

=== FILE: endtoend.dfy ===
/** The server's writes read back by the example client: every frame the
    handler writes is one data line and one blank line, so the client reads
    exactly the events of the run, in order, and sees the end marker exactly
    when the generator ran to completion. The search tool plugged into the
    orchestrator never leaves a completed `tool_call` without output. */
module EndToEnd {
  import opened Types
  import Strings
  import Json
  import Gemini
  import Server
  import Client
  import Tools
  import Wire

  /** The objects the handler puts on the wire for a run, in order: its
      events, then the error object when the generator threw. */
  function WireOf(run: Gemini.Run): (r: seq<WireEvent>)
    ensures |r| == |run.events| + (if run.escaped.Some? then 1 else 0)
  {
    Events(run.events) + (if run.escaped.Some? then [Server.StreamingError(run.escaped.value)] else [])
  }

  function Events(events: seq<StreamEvent>): (r: seq<WireEvent>)
    ensures |r| == |events|
    decreases |events|
  {
    if events == [] then [] else [Event(events[0])] + Events(events[1..])
  }

  /** What the client shows for each object, given the JSON text it came in. */
  function Displays(ws: seq<WireEvent>, mode: Client.Renderer): seq<Client.Display>
    decreases |ws|
  {
    if ws == [] then [] else Client.Render(mode, ws[0], Json.Encode(ws[0])) + Displays(ws[1..], mode)
  }

  /** A parser that reads back every object the server encodes. */
  ghost predicate Inverts(parse: string -> Option<WireEvent>) {
    forall w :: parse(Json.Encode(w)) == Some(w)
  }

  // ------------------------------------------------------------------ frames

  /** A line, a blank line, then anything: the line and the empty line come
      first among the pieces. */
  lemma LineThenBlank(x: string, rest: string)
    requires '\n' !in x
    ensures Strings.Split(x + "\n\n" + rest, '\n') == [x, ""] + Strings.Split(rest, '\n')
  {
    var nl := ['\n'] + rest;
    assert x + "\n\n" + rest == x + ['\n'] + nl;
    Strings.SplitAt(x, '\n', nl);
    assert nl == "" + ['\n'] + rest;
    Strings.SplitAt("", '\n', rest);
  }

  lemma NoBreakConcat(a: string, b: string)
    requires '\n' !in a && '\n' !in b
    ensures '\n' !in a + b
  {
  }

  lemma PrefixUnbroken()
    ensures '\n' !in Wire.DataPrefix
  {
  }

  /** The data line of a frame holds no line break. */
  lemma DataLineUnbroken(w: WireEvent)
    ensures '\n' !in Wire.DataPrefix + Json.Encode(w)
  {
    var e := Json.Encode(w);
    assert '\n' !in e by {
      Json.EncodeShape(w);
    }
    PrefixUnbroken();
    NoBreakConcat(Wire.DataPrefix, e);
  }

  /** A data line carrying a JSON object passes its text on untouched. */
  lemma ObjectLineClassified(e: string)
    requires |e| >= 2 && e[0] == '{' && e[|e| - 1] == '}'
    ensures Client.Classify(Wire.DataPrefix + e) == Client.Data(e)
  {
    BracedUntouched(e);
    BracedNotDone(e);
    PrefixedLineClassified(e);
  }

  lemma BracedUntouched(e: string)
    requires |e| >= 2 && e[0] == '{' && e[|e| - 1] == '}'
    ensures Strings.Trim(e) == e
  {
    assert !Strings.IsSpace('{') && !Strings.IsSpace('}');
    Strings.TrimOfTrimmed(e);
  }

  lemma BracedNotDone(e: string)
    requires |e| >= 2 && e[0] == '{'
    ensures e != Wire.DoneMarker
  {
    assert e[0] != Wire.DoneMarker[0];
  }

  lemma PrefixedLineClassified(e: string)
    requires Strings.Trim(e) == e && e != Wire.DoneMarker
    ensures Client.Classify(Wire.DataPrefix + e) == Client.Data(e)
  {
    var line := Wire.DataPrefix + e;
    assert Strings.StartsWith(line, Wire.DataPrefix) by {
      assert line[..|Wire.DataPrefix|] == Wire.DataPrefix;
    }
    assert line[|Wire.DataPrefix|..] == e;
  }

  /** The data line of a frame yields its object to a parser that reads it
      back. */
  lemma FrameStep(w: WireEvent, mode: Client.Renderer, parse: string -> Option<WireEvent>)
    requires Inverts(parse)
    ensures Client.Reader(mode, parse)(Wire.DataPrefix + Json.Encode(w))
         == Client.Session([w], Client.Render(mode, w, Json.Encode(w)), false)
  {
    var e := Json.Encode(w);
    assert Client.Classify(Wire.DataPrefix + e) == Client.Data(e) by {
      Json.EncodeShape(w);
      ObjectLineClassified(e);
    }
    assert parse(e) == Some(w);
    Client.GoodDataStep(Wire.DataPrefix + e, e, w, mode, parse);
  }

  /** A line read as `s`, a blank line, then anything: `s`, then the rest. */
  lemma LineRead(x: string, s: Client.Session, rest: string, step: string -> Client.Session)
    requires '\n' !in x && step(x) == s && !s.sawDone
    requires step("") == Client.Session([], [], false)
    ensures Client.ReadText(x + "\n\n" + rest, step) == Client.Then(s, Client.ReadText(rest, step))
  {
    var tail := Strings.Split(rest, '\n');
    LineThenBlank(x, rest);
    Client.ReadLinesAppend([x, ""], tail, step);
    assert Client.ReadLines([x, ""], step) == s by {
      Client.ReadLinesAppend([x], [""], step);
      assert [x] + [""] == [x, ""];
      Client.LoneLineRead([x], x, s, step);
      Client.BlankLineRead(step);
      Client.ThenEmpty(s);
    }
  }

  /** Reading a frame and then anything: the frame's object, then the rest. */
  lemma FrameRead(w: WireEvent, rest: string, mode: Client.Renderer, parse: string -> Option<WireEvent>)
    requires Inverts(parse)
    ensures Client.ReadText(Server.Frame(w) + rest, Client.Reader(mode, parse))
         == Client.Then(Client.Session([w], Client.Render(mode, w, Json.Encode(w)), false),
                        Client.ReadText(rest, Client.Reader(mode, parse)))
  {
    var x := Wire.DataPrefix + Json.Encode(w);
    DataLineUnbroken(w);
    FrameStep(w, mode, parse);
    Client.BlankLineIgnored(mode, parse);
    LineRead(x, Client.Session([w], Client.Render(mode, w, Json.Encode(w)), false), rest, Client.Reader(mode, parse));
  }

  /** Reading the frames of `events` and then anything: those events and
      what they show, then the rest. */
  lemma {:induction false} FramesRead(events: seq<StreamEvent>, rest: string, mode: Client.Renderer, parse: string -> Option<WireEvent>)
    requires Inverts(parse)
    ensures Client.ReadText(Strings.Concat(Server.EventFrames(events)) + rest, Client.Reader(mode, parse))
         == Client.Then(Client.Session(Events(events), Displays(Events(events), mode), false),
                        Client.ReadText(rest, Client.Reader(mode, parse)))
    decreases |events|
  {
    var frames := Server.EventFrames(events);
    if events == [] {
      assert Strings.Concat(frames) + rest == rest;
      Client.EmptyThen(Client.ReadText(rest, Client.Reader(mode, parse)));
    } else {
      var w := Event(events[0]);
      var later := Strings.Concat(Server.EventFrames(events[1..]));
      var first := Client.Session([w], Client.Render(mode, w, Json.Encode(w)), false);
      var others := Client.Session(Events(events[1..]), Displays(Events(events[1..]), mode), false);
      assert Strings.Concat(frames) + rest == Server.Frame(w) + (later + rest) by {
        assert frames[0] == Server.Frame(w) && frames[1..] == Server.EventFrames(events[1..]);
      }
      FrameRead(w, later + rest, mode, parse);
      FramesRead(events[1..], rest, mode, parse);
      Client.ThenAssoc(first, others, Client.ReadText(rest, Client.Reader(mode, parse)));
      assert Events(events)[1..] == Events(events[1..]);
    }
  }

  /** The end marker read on its own ends the reading with nothing shown. */
  lemma DoneFrameRead(mode: Client.Renderer, parse: string -> Option<WireEvent>)
    ensures Client.ReadText(Wire.DoneFrame, Client.Reader(mode, parse)) == Client.Session([], [], true)
  {
    var lines := Strings.Split(Wire.DoneFrame, '\n');
    DoneFrameLines();
    Client.DoneLineEnds(mode, parse);
    Client.EndedLines(lines, Client.Reader(mode, parse));
  }

  /** The end marker's frame is the marker line and two empty pieces. */
  lemma DoneFrameLines()
    ensures Strings.Split(Wire.DoneFrame, '\n') == [Wire.DataPrefix + Wire.DoneMarker, "", ""]
  {
    var line := Wire.DataPrefix + Wire.DoneMarker;
    assert Wire.DoneFrame == line + "\n\n" + "";
    assert '\n' !in line;
    LineThenBlank(line, "");
    assert Strings.Split("", '\n') == [""];
  }

  /** The last write read on its own: the end marker, or the error object. */
  lemma EndingRead(escaped: Option<string>, mode: Client.Renderer, parse: string -> Option<WireEvent>)
    requires Inverts(parse)
    ensures escaped.None? ==>
      Client.ReadText(Server.Ending(escaped), Client.Reader(mode, parse)) == Client.Session([], [], true)
    ensures escaped.Some? ==>
      var w := Server.StreamingError(escaped.value);
      Client.ReadText(Server.Ending(escaped), Client.Reader(mode, parse))
        == Client.Session([w], Client.Render(mode, w, Json.Encode(w)), false)
  {
    if escaped.None? {
      DoneFrameRead(mode, parse);
    } else {
      var w := Server.StreamingError(escaped.value);
      var s := Client.Session([w], Client.Render(mode, w, Json.Encode(w)), false);
      FrameRead(w, "", mode, parse);
      assert Server.Frame(w) + "" == Server.Frame(w);
      assert Client.ReadText("", Client.Reader(mode, parse)) == Client.Session([], [], false) by {
        assert Strings.Split("", '\n') == [""];
        Client.BlankLineIgnored(mode, parse);
        Client.BlankLineRead(Client.Reader(mode, parse));
      }
      Client.ThenEmpty(s);
    }
  }

  /** Every write ends a line, so the as-written reader loses nothing when
      each write arrives as a read of its own. */
  lemma WritesEndLines(req: ChatRequest, b: Gemini.Backend)
    requires Server.Accepts(req.query)
    ensures
      var ws := Server.Handle(req, b).writes;
      forall i :: 0 <= i < |ws| ==> ws[i] != [] && ws[i][|ws[i]| - 1] == '\n'
  {
  }

  // ---------------------------------------------------------------- theorems

  /** The client reading all the handler's writes sees exactly the run's
      objects, shows each as its JSON text dictates, and sees the end marker
      exactly when the generator ran to completion. */
  lemma ClientSeesRun(req: ChatRequest, b: Gemini.Backend, mode: Client.Renderer, parse: string -> Option<WireEvent>)
    requires Server.Accepts(req.query) && Inverts(parse)
    ensures
      var run := Gemini.Stream(req.query.s, b);
      var ws := WireOf(run);
      Client.ReadText(Strings.Concat(Server.Handle(req, b).writes), Client.Reader(mode, parse))
        == Client.Session(ws, Displays(ws, mode), run.escaped.None?)
  {
    var run := Gemini.Stream(req.query.s, b);
    assert Server.Handle(req, b).writes == Server.EventFrames(run.events) + [Server.Ending(run.escaped)];
    RunRead(run, mode, parse);
  }

  /** The writes for a run read back in one piece; a run that threw yielded
      nothing. */
  lemma RunRead(run: Gemini.Run, mode: Client.Renderer, parse: string -> Option<WireEvent>)
    requires Inverts(parse) && (run.escaped.Some? ==> run.events == [])
    ensures
      var ws := WireOf(run);
      Client.ReadText(Strings.Concat(Server.EventFrames(run.events) + [Server.Ending(run.escaped)]), Client.Reader(mode, parse))
        == Client.Session(ws, Displays(ws, mode), run.escaped.None?)
  {
    var frames := Server.EventFrames(run.events);
    var last := Server.Ending(run.escaped);
    assert Strings.Concat(frames + [last]) == Strings.Concat(frames) + last by {
      Strings.ConcatAppend(frames, [last]);
      assert [last][1..] == [];
    }
    FramesRead(run.events, last, mode, parse);
    if run.escaped.Some? {
      ThrownRunRead(run, mode, parse);
    } else {
      CompletedRunRead(run, mode, parse);
    }
  }

  lemma CompletedRunRead(run: Gemini.Run, mode: Client.Renderer, parse: string -> Option<WireEvent>)
    requires Inverts(parse) && run.escaped.None?
    ensures
      var evs := Events(run.events);
      Client.Then(Client.Session(evs, Displays(evs, mode), false),
                  Client.ReadText(Server.Ending(run.escaped), Client.Reader(mode, parse)))
        == Client.Session(WireOf(run), Displays(WireOf(run), mode), true)
  {
    EndingRead(run.escaped, mode, parse);
    assert WireOf(run) == Events(run.events) + [];
    assert Events(run.events) + [] == Events(run.events);
  }

  lemma ThrownRunRead(run: Gemini.Run, mode: Client.Renderer, parse: string -> Option<WireEvent>)
    requires Inverts(parse) && run.escaped.Some? && run.events == []
    ensures
      var evs := Events(run.events);
      Client.Then(Client.Session(evs, Displays(evs, mode), false),
                  Client.ReadText(Server.Ending(run.escaped), Client.Reader(mode, parse)))
        == Client.Session(WireOf(run), Displays(WireOf(run), mode), false)
  {
    var w := Server.StreamingError(run.escaped.value);
    EndingRead(run.escaped, mode, parse);
    assert Events(run.events) == [];
    assert WireOf(run) == [w];
    assert Displays([w], mode) == Client.Render(mode, w, Json.Encode(w)) + Displays([w][1..], mode);
    assert [w][1..] == [];
  }



  /** The same when each write arrives as a read of its own, for the client
      as written. */
  lemma ChunkPerWrite(req: ChatRequest, b: Gemini.Backend, mode: Client.Renderer, parse: string -> Option<WireEvent>)
    requires Server.Accepts(req.query) && Inverts(parse)
    ensures
      var run := Gemini.Stream(req.query.s, b);
      var ws := WireOf(run);
      Client.ReadChunks(Server.Handle(req, b).writes, Client.Reader(mode, parse))
        == Client.Session(ws, Displays(ws, mode), run.escaped.None?)
  {
    var ws := Server.Handle(req, b).writes;
    assert Client.ReadChunks(ws, Client.Reader(mode, parse)) == Client.ReadText(Strings.Concat(ws), Client.Reader(mode, parse)) by {
      WritesEndLines(req, b);
      LinesReadAsWritten(ws, mode, parse);
    }
    ClientSeesRun(req, b, mode, parse);
  }

  lemma LinesReadAsWritten(ws: seq<string>, mode: Client.Renderer, parse: string -> Option<WireEvent>)
    requires forall i :: 0 <= i < |ws| ==> ws[i] != [] && ws[i][|ws[i]| - 1] == '\n'
    ensures Client.ReadChunks(ws, Client.Reader(mode, parse)) == Client.ReadText(Strings.Concat(ws), Client.Reader(mode, parse))
  {
    Client.BlankLineIgnored(mode, parse);
    Client.WholeReadsAsWritten(ws, Client.Reader(mode, parse));
  }

  /** The same for any cutting of the writes into reads, for a client that
      carries the unfinished line over to the next read. */
  lemma AnyChunksBuffered(req: ChatRequest, b: Gemini.Backend, chunks: seq<string>, mode: Client.Renderer, parse: string -> Option<WireEvent>)
    requires Server.Accepts(req.query) && Inverts(parse)
    requires Strings.Concat(chunks) == Strings.Concat(Server.Handle(req, b).writes)
    ensures
      var run := Gemini.Stream(req.query.s, b);
      var ws := WireOf(run);
      Client.ReadBuffered("", chunks, Client.Reader(mode, parse))
        == Client.Session(ws, Displays(ws, mode), run.escaped.None?)
  {
    Client.BufferedReadsWhole("", chunks, Client.Reader(mode, parse));
    assert "" + Strings.Concat(chunks) == Strings.Concat(chunks);
    ClientSeesRun(req, b, mode, parse);
  }

  /** The JSON reader of this model reads back every object the server
      encodes, so the theorems above hold for it. */
  lemma DecodeInverts()
    ensures Inverts(Json.Decode)
  {
    forall w: WireEvent
      ensures Json.Decode(Json.Encode(w)) == Some(w)
    {
      Json.DecodeEncode(w);
    }
  }

  // ---------------------------------------------------- the pending tool_call

  /** What the client shows for the objects it reads contains what it shows
      for each of them. */
  lemma {:induction false} DisplaysContain(ws: seq<WireEvent>, i: nat, mode: Client.Renderer)
    requires i < |ws|
    ensures forall d :: d in Client.Render(mode, ws[i], Json.Encode(ws[i])) ==> d in Displays(ws, mode)
    decreases |ws|
  {
    var head := Client.Render(mode, ws[0], Json.Encode(ws[0]));
    var tail := Displays(ws[1..], mode);
    assert Displays(ws, mode) == head + tail;
    if i == 0 {
      forall d | d in head
        ensures d in Displays(ws, mode)
      {
        assert d in head + tail;
      }
    } else {
      DisplaysContain(ws[1..], i - 1, mode);
      assert ws[1..][i - 1] == ws[i];
      forall d | d in Client.Render(mode, ws[i], Json.Encode(ws[i]))
        ensures d in Displays(ws, mode)
      {
        assert d in tail;
        assert d in head + tail;
      }
    }
  }

  lemma {:induction false} DisplaysNeverRaw(ws: seq<WireEvent>)
    ensures forall d :: d in Displays(ws, Client.Corrected) ==> !d.RawData?
    decreases |ws|
  {
    if ws != [] {
      var w := ws[0];
      if w.Event? {
        Client.CorrectedNeverRaw(w.event, Json.Encode(w));
      }
      DisplaysNeverRaw(ws[1..]);
    }
  }

  lemma {:induction false} EventsContain(events: seq<StreamEvent>, e: StreamEvent)
    requires e in events
    ensures Event(e) in Events(events)
    decreases |events|
  {
    if events[0] != e {
      EventsContain(events[1..], e);
    }
  }

  /** As written, a run that searches shows raw JSON: the pending
      `tool_call` the server sends before each search has output `null`,
      which the client does not take for pending. */
  lemma SearchShowsRawAsWritten(req: ChatRequest, b: Gemini.Backend, parse: string -> Option<WireEvent>)
    requires Server.Accepts(req.query) && Inverts(parse)
    requires Gemini.Stream(req.query.s, b).searches != []
    ensures exists d :: d in Client.ReadText(Strings.Concat(Server.Handle(req, b).writes), Client.Reader(Client.AsWritten, parse)).shown
                        && d.RawData?
  {
    var run := Gemini.Stream(req.query.s, b);
    ClientSeesRun(req, b, Client.AsWritten, parse);
    var pending := ToolEvent(Gemini.WebSearchName, run.searches[0], Null);
    PendingInRun(req.query.s, b);
    EventsContain(run.events, pending);
    assert Event(pending) in WireOf(run);
    PendingShownRaw(WireOf(run), pending);
  }

  /** A run that searches yields the pending `tool_call` of its first search. */
  lemma PendingInRun(prompt: string, b: Gemini.Backend)
    requires Gemini.Stream(prompt, b).searches != []
    ensures
      var run := Gemini.Stream(prompt, b);
      ToolEvent(Gemini.WebSearchName, run.searches[0], Null) in run.events
  {
    var run := Gemini.Stream(prompt, b);
    Gemini.SearchesMatchToolEvents(prompt, b);
    assert ToolEvents(run.events)[0] == ToolEvent(Gemini.WebSearchName, run.searches[0], Null);
    ToolEventsFilter(run.events);
  }

  lemma PendingShownRaw(ws: seq<WireEvent>, pending: StreamEvent)
    requires Event(pending) in ws && pending.kind == ToolInvocation && pending.output == Null
    ensures exists d :: d in Displays(ws, Client.AsWritten) && d.RawData?
  {
    var i :| 0 <= i < |ws| && ws[i] == Event(pending);
    var data := Json.Encode(ws[i]);
    DisplaysContain(ws, i, Client.AsWritten);
    assert Client.Render(Client.AsWritten, ws[i], data)[1] == Client.RawData(data);
  }


  /** With the falsy-output check nothing the server sends is shown raw. */
  lemma CorrectedShowsNoRaw(req: ChatRequest, b: Gemini.Backend, parse: string -> Option<WireEvent>)
    requires Server.Accepts(req.query) && Inverts(parse)
    ensures forall d :: d in Client.ReadText(Strings.Concat(Server.Handle(req, b).writes), Client.Reader(Client.Corrected, parse)).shown
                        ==> !d.RawData?
  {
    ClientSeesRun(req, b, Client.Corrected, parse);
    DisplaysNeverRaw(WireOf(Gemini.Stream(req.query.s, b)));
  }

  // ------------------------------------------------------------- the tool

  /** The orchestrator wired to the search tool with key `key` and HTTP
      exchange `get`. */
  function WithTool(b: Gemini.Backend, key: Option<string>, get: Tools.Request -> Tools.HttpOutcome): (r: Gemini.Backend)
    ensures forall q :: r.search(q) != ""
  {
    b.(search := q => Tools.WebSearch(q, key, get).text)
  }

  lemma {:induction false} ToolPairsOutputs(qs: seq<string>, search: string -> string)
    requires forall q :: search(q) != ""
    ensures forall e :: e in Gemini.ToolPairs(qs, search) ==> e.output == Null || (e.output.Text? && e.output.value != "")
    decreases |qs|
  {
    if qs != [] {
      ToolPairsOutputs(qs[1..], search);
    }
  }

  /** With the search tool plugged in, every `tool_call` the run yields is
      either pending (output `null`) or carries a non-empty output, so the
      client never mistakes a finished search for a pending one. */
  lemma ToolOutputsNonEmpty(prompt: string, b: Gemini.Backend, key: Option<string>, get: Tools.Request -> Tools.HttpOutcome)
    ensures
      var events := Gemini.Stream(prompt, WithTool(b, key, get)).events;
      forall e :: e in events && e.kind == ToolInvocation ==>
        e.output == Null || (e.output.Text? && e.output.value != "")
  {
    var bt := WithTool(b, key, get);
    var run := Gemini.Stream(prompt, bt);
    Gemini.SearchesMatchToolEvents(prompt, bt);
    ToolEventsFilter(run.events);
    ToolPairsOutputs(run.searches, bt.search);
  }
}

=== FILE: gemini.dfy ===
/** The agent event sequencer `streamGeminiResponse`: drains the first
    turn, forwarding its text as `reasoning`, then either runs one search and
    one continuation turn per `web_search` call or answers directly, and turns
    any failure inside its `try` into one `Error: ...` response.

    The generation backend and the search tool are inputs: a first turn
    scripted as a function of the prompt, the continuation turn that follows
    the k-th search, and a search oracle. A turn is the chunks its stream
    delivers, optionally followed by a throw. */
module Gemini {
  import opened Types
  import Strings
  import Json

  const WebSearchName := "web_search"
  const MissingKeyMessage := "GEMINI_API_KEY environment variable is required"
  const SearchIntro := "I need to search for current information to answer this accurately."
  const NoAnswer := "I received your query but couldn't generate a response. Please try again."
  const UnknownError := "Unknown error occurred"
  const ErrorPrefix := "Error: "

  /** `functionDeclarations`: the static tool registry advertised to the
      backend. */
  datatype Parameter = Parameter(name: string, kind: string, description: string)
  datatype FunctionDeclaration = FunctionDeclaration(
    name: string, description: string, parameters: seq<Parameter>, required: seq<string>)

  const FunctionDeclarations: seq<FunctionDeclaration> := [
    FunctionDeclaration(
      WebSearchName,
      "Search the web for current information, facts, or real-time data. Use this function when the user asks about current events, recent news, statistics, or anything requiring up-to-date information beyond your training data cutoff.",
      [Parameter("query", "string", "The specific search query to look up on the web. Be precise and focused.")],
      ["query"])
  ]

  predicate Registered(name: string) {
    exists i :: 0 <= i < |FunctionDeclarations| && FunctionDeclarations[i].name == name
  }

  /** Every `tool_call` among the events names a registered tool. */
  predicate ToolsRegistered(events: seq<StreamEvent>) {
    forall i :: 0 <= i < |events| && events[i].kind == ToolInvocation ==>
      events[i].tool.Some? && Registered(events[i].tool.value)
  }

  /** One element of a backend stream: its text (empty when it has none) and
      the function calls it carries. */
  datatype Chunk = Chunk(text: string, calls: seq<ToolCall>)

  /** What a turn can throw: an `Error` with a message, or some other value. */
  datatype Fault = Thrown(message: string) | NotAnError

  /** A backend turn: the chunks delivered, then possibly a throw. */
  datatype Turn = Turn(chunks: seq<Chunk>, fault: Option<Fault>)

  /** Everything outside the sequencer: the API key, the backend's first turn
      for a prompt, the continuation turn after the k-th search (counting
      from 0), and the search tool. */
  datatype Backend = Backend(
    apiKey: Option<string>,
    first: string -> Turn,
    reply: nat -> Turn,
    search: string -> string)

  /** A run of the generator: the events it yields, the queries it passed to
      the search tool (one entry per invocation), and the message of an error
      that escapes it. */
  datatype Run = Run(events: seq<StreamEvent>, searches: seq<string>, escaped: Option<string>)

  /** The events, searches and possible throw of the tool loop. */
  datatype Phase = Phase(events: seq<StreamEvent>, searches: seq<string>, fault: Option<Fault>)

  function FaultMessage(f: Fault): string {
    match f
    case Thrown(m) => m
    case NotAnError => UnknownError
  }

  /** The `response` the `catch` block yields. */
  function ErrorResponse(f: Fault): StreamEvent {
    TextEvent(Response, ErrorPrefix + FaultMessage(f))
  }

  /** `fullResponse`: the texts of the chunks, glued together. */
  function TurnText(chunks: seq<Chunk>): string
    decreases |chunks|
  {
    if chunks == [] then "" else chunks[0].text + TurnText(chunks[1..])
  }

  /** `functionCalls`: the calls of all chunks, in order. */
  function TurnCalls(chunks: seq<Chunk>): seq<ToolCall>
    decreases |chunks|
  {
    if chunks == [] then [] else chunks[0].calls + TurnCalls(chunks[1..])
  }

  /** `hasText`: some chunk had non-empty text. */
  predicate HasText(chunks: seq<Chunk>) {
    exists i :: 0 <= i < |chunks| && chunks[i].text != ""
  }

  /** The texts of the chunks that have one, in order. */
  function NonEmptyTexts(chunks: seq<Chunk>): seq<string>
    decreases |chunks|
  {
    if chunks == [] then []
    else (if chunks[0].text != "" then [chunks[0].text] else []) + NonEmptyTexts(chunks[1..])
  }

  /** The events yielded while a turn is drained, one per chunk with text;
      together they spell out the whole text of the turn. */
  function TextEvents(chunks: seq<Chunk>, kind: StreamEventType): (r: seq<StreamEvent>)
    ensures Transcript(r) == TurnText(chunks)
    decreases |chunks|
  {
    if chunks == [] then []
    else
      var head := if chunks[0].text != "" then [TextEvent(kind, chunks[0].text)] else [];
      var r := head + TextEvents(chunks[1..], kind);
      TranscriptAppend(head, TextEvents(chunks[1..], kind));
      r
  }

  /** The i-th event of a drained turn carries the i-th non-empty chunk text:
      one event per chunk with text, in chunk order, none for empty chunks. */
  lemma {:induction false} TextEventsCarryChunks(chunks: seq<Chunk>, kind: StreamEventType)
    ensures |TextEvents(chunks, kind)| == |NonEmptyTexts(chunks)|
    ensures forall i :: 0 <= i < |TextEvents(chunks, kind)| ==>
      TextEvents(chunks, kind)[i] == TextEvent(kind, NonEmptyTexts(chunks)[i])
    ensures forall i :: 0 <= i < |NonEmptyTexts(chunks)| ==> NonEmptyTexts(chunks)[i] != ""
    decreases |chunks|
  {
    if chunks != [] {
      TextEventsCarryChunks(chunks[1..], kind);
    }
  }

  /** `args.query || args.searchQuery || JSON.stringify(args)`: the first
      non-empty of the two query arguments, else the whole record as JSON.
      The result is never empty. */
  function SearchInput(args: Args): (q: string)
    ensures q != ""
    ensures Truthy(Get(args, "query")) ==> q == Get(args, "query").value
    ensures !Truthy(Get(args, "query")) && Truthy(Get(args, "searchQuery")) ==> q == Get(args, "searchQuery").value
    ensures !Truthy(Get(args, "query")) && !Truthy(Get(args, "searchQuery")) ==> q == Json.EncodeArgs(args)
  {
    var query, alt := Get(args, "query"), Get(args, "searchQuery");
    if Truthy(query) then query.value
    else if Truthy(alt) then alt.value
    else Json.EncodeArgs(args)
  }

  /** The events of one search: the pending `tool_call` (output `null`), the
      completed one, and the continuation turn's text as `response`s. */
  function Block(q: string, output: string, turn: Turn): seq<StreamEvent> {
    [ToolEvent(WebSearchName, q, Null), ToolEvent(WebSearchName, q, Text(output))]
      + TextEvents(turn.chunks, Response)
  }

  /** The loop over the calls of the first turn; `k` counts the searches
      already done. A call to another function is passed over; a throw in a
      continuation ends the loop. */
  function ToolLoop(calls: seq<ToolCall>, k: nat, reply: nat -> Turn, search: string -> string): Phase
    decreases |calls|
  {
    if calls == [] then Phase([], [], None)
    else if calls[0].name != WebSearchName then ToolLoop(calls[1..], k, reply, search)
    else
      var q := SearchInput(calls[0].args);
      var turn := reply(k);
      var block := Block(q, search(q), turn);
      if turn.fault.Some? then Phase(block, [q], turn.fault)
      else
        var rest := ToolLoop(calls[1..], k + 1, reply, search);
        Phase(block + rest.events, [q] + rest.searches, rest.fault)
  }

  /** The fixed `reasoning` yielded before the tool loop when the first turn
      had no visible text. */
  function Intro(chunks: seq<Chunk>): seq<StreamEvent> {
    if !HasText(chunks) || Strings.Trim(TurnText(chunks)) == "" then [TextEvent(Reasoning, SearchIntro)] else []
  }

  /** What the generator yields once the first turn is drained without a
      throw: the tool loop when there were calls, else the whole text as one
      `response`, else the fixed apology. The loop's throw, if any, is
      returned for the `catch` block. */
  function Decide(chunks: seq<Chunk>, reply: nat -> Turn, search: string -> string): Phase {
    var text := TurnText(chunks);
    var calls := TurnCalls(chunks);
    if |calls| > 0 then
      var p := ToolLoop(calls, 0, reply, search);
      Phase(Intro(chunks) + p.events, p.searches, p.fault)
    else if text != "" then Phase([TextEvent(Response, text)], [], None)
    else if !HasText(chunks) then Phase([TextEvent(Response, NoAnswer)], [], None)
    else Phase([], [], None)
  }

  /** The `Error: ` response the `catch` block yields for a throw, if any. */
  function FaultTail(f: Option<Fault>): seq<StreamEvent> {
    if f.Some? then [ErrorResponse(f.value)] else []
  }

  /** `streamGeminiResponse(prompt)` against the backend `b`. A missing key
      throws out of the generator before anything is yielded (the model is
      fetched outside the `try`); every other failure becomes one `Error: `
      response after the events already yielded. */
  function Stream(prompt: string, b: Backend): (r: Run)
    ensures r.escaped.Some? <==> !Truthy(b.apiKey)
    ensures r.escaped.Some? ==> r.events == [] && r.searches == [] && r.escaped.value == MissingKeyMessage
  {
    if !Truthy(b.apiKey) then Run([], [], Some(MissingKeyMessage))
    else
      var turn := b.first(prompt);
      var streamed := TextEvents(turn.chunks, Reasoning);
      if turn.fault.Some? then Run(streamed + [ErrorResponse(turn.fault.value)], [], None)
      else
        var p := Decide(turn.chunks, b.reply, b.search);
        Run(streamed + p.events + FaultTail(p.fault), p.searches, None)
  }

  // ------------------------------------------------------------------ lemmas

  /** `hasText` is set exactly when the accumulated text is non-empty, so
      the last `else` of the sequencer can never be taken. */
  lemma {:induction false} HasTextIffText(chunks: seq<Chunk>)
    ensures HasText(chunks) <==> TurnText(chunks) != ""
    decreases |chunks|
  {
    if chunks != [] {
      HasTextIffText(chunks[1..]);
      if HasText(chunks[1..]) {
        var i :| 0 <= i < |chunks[1..]| && chunks[1..][i].text != "";
        assert chunks[i + 1].text != "";
      }
      if HasText(chunks) && chunks[0].text == "" {
        var i :| 0 <= i < |chunks| && chunks[i].text != "";
        assert chunks[1..][i - 1].text != "";
      }
    }
  }

  /** The inputs of the `web_search` calls among `calls`, in order. */
  function WebSearchInputs(calls: seq<ToolCall>): seq<string>
    decreases |calls|
  {
    if calls == [] then []
    else (if calls[0].name == WebSearchName then [SearchInput(calls[0].args)] else []) + WebSearchInputs(calls[1..])
  }

  /** The blocks of the searches `qs`, the i-th answered by continuation k+i. */
  function Blocks(qs: seq<string>, k: nat, reply: nat -> Turn, search: string -> string): seq<StreamEvent>
    decreases |qs|
  {
    if qs == [] then [] else Block(qs[0], search(qs[0]), reply(k)) + Blocks(qs[1..], k + 1, reply, search)
  }

  /** The `tool_call` events one search each for `qs` should produce: pending
      with output `null`, then completed with the tool's answer. */
  function ToolPairs(qs: seq<string>, search: string -> string): seq<StreamEvent>
    decreases |qs|
  {
    if qs == [] then []
    else
      var pair := [ToolEvent(WebSearchName, qs[0], Null), ToolEvent(WebSearchName, qs[0], Text(search(qs[0])))];
      pair + ToolPairs(qs[1..], search)
  }

  lemma {:induction false} NoToolEvents(events: seq<StreamEvent>)
    requires forall i :: 0 <= i < |events| ==> events[i].kind != ToolInvocation
    ensures ToolEvents(events) == []
    decreases |events|
  {
    if events != [] {
      NoToolEvents(events[1..]);
    }
  }

  lemma TextEventsHaveNoTools(chunks: seq<Chunk>, kind: StreamEventType)
    requires kind != ToolInvocation
    ensures ToolEvents(TextEvents(chunks, kind)) == []
  {
    TextEventsCarryChunks(chunks, kind);
    NoToolEvents(TextEvents(chunks, kind));
  }

  lemma ToolPairEvents(a: StreamEvent, b: StreamEvent)
    requires a.kind == ToolInvocation && b.kind == ToolInvocation
    ensures ToolEvents([a, b]) == [a, b]
  {
    assert ToolEvents([b]) == [b] by {
      assert [b][0] == b && [b][1..] == [];
      assert ToolEvents([b]) == [b] + ToolEvents([]);
    }
    assert [a, b][0] == a && [a, b][1..] == [b];
    assert ToolEvents([a, b]) == [a] + ToolEvents([b]);
  }

  /** The `tool_call` events of a run of blocks are exactly the pending and
      completed pair of each search, in order. */
  lemma {:induction false} BlocksToolEvents(qs: seq<string>, k: nat, reply: nat -> Turn, search: string -> string)
    ensures ToolEvents(Blocks(qs, k, reply, search)) == ToolPairs(qs, search)
    decreases |qs|
  {
    if qs != [] {
      var q := qs[0];
      var pair := [ToolEvent(WebSearchName, q, Null), ToolEvent(WebSearchName, q, Text(search(q)))];
      var texts := TextEvents(reply(k).chunks, Response);
      var later := Blocks(qs[1..], k + 1, reply, search);
      assert ToolEvents(pair) == pair by {
        ToolPairEvents(pair[0], pair[1]);
      }
      calc {
        ToolEvents(Blocks(qs, k, reply, search));
        ToolEvents(pair + texts + later);
        { ToolEventsAppend(pair + texts, later); }
        ToolEvents(pair + texts) + ToolEvents(later);
        { ToolEventsAppend(pair, texts); TextEventsHaveNoTools(reply(k).chunks, Response); }
        pair + ToolEvents(later);
        { BlocksToolEvents(qs[1..], k + 1, reply, search); }
        pair + ToolPairs(qs[1..], search);
      }
    }
  }

  /** The continuations numbered `from` up to `to` (exclusive) do not throw. */
  predicate Answered(reply: nat -> Turn, from: nat, to: nat) {
    forall n :: from <= n < to ==> Clean(reply(n))
  }

  predicate Clean(t: Turn) {
    t.fault.None?
  }

  /** The tool loop searches a prefix of the `web_search` inputs, in order,
      once each, and its events are the blocks of exactly those searches. */
  lemma {:induction false} ToolLoopSearches(calls: seq<ToolCall>, k: nat, reply: nat -> Turn, search: string -> string)
    ensures |ToolLoop(calls, k, reply, search).searches| <= |WebSearchInputs(calls)|
    ensures ToolLoop(calls, k, reply, search).searches
         == WebSearchInputs(calls)[..|ToolLoop(calls, k, reply, search).searches|]
    ensures ToolLoop(calls, k, reply, search).events
         == Blocks(ToolLoop(calls, k, reply, search).searches, k, reply, search)
    decreases |calls|
  {
    if calls == [] {
    } else if calls[0].name != WebSearchName {
      ToolLoopSearches(calls[1..], k, reply, search);
    } else {
      var q := SearchInput(calls[0].args);
      var qs := WebSearchInputs(calls);
      assert qs == [q] + WebSearchInputs(calls[1..]);
      if reply(k).fault.None? {
        var rest := ToolLoop(calls[1..], k + 1, reply, search);
        ToolLoopSearches(calls[1..], k + 1, reply, search);
        assert ([q] + rest.searches)[1..] == rest.searches;
      }
    }
  }

  /** The position, counting from continuation `k`, of the first of the next
      `n` continuations that throws; `n` when none of them does. */
  function FirstFailure(reply: nat -> Turn, k: nat, n: nat): (f: nat)
    ensures f <= n
    decreases n
  {
    if n == 0 then 0
    else if reply(k).fault.Some? then 0
    else 1 + FirstFailure(reply, k + 1, n - 1)
  }

  /** FirstFailure is the first throwing continuation: all before it answer,
      and, unless it is `n`, it throws. */
  lemma {:induction false} FirstFailureMeaning(reply: nat -> Turn, k: nat, n: nat)
    ensures Answered(reply, k, k + FirstFailure(reply, k, n))
    ensures FirstFailure(reply, k, n) < n ==> !Clean(reply(k + FirstFailure(reply, k, n)))
    ensures FirstFailure(reply, k, n) == n <==> Answered(reply, k, k + n)
    decreases n
  {
    if n > 0 && reply(k).fault.None? {
      FirstFailureMeaning(reply, k + 1, n - 1);
      assert Clean(reply(k));
    }
  }

  /** The tool loop stops at the first continuation that throws, and only
      there: after that search, with that continuation's throw; with no throw
      it has searched every `web_search` input. */
  lemma {:induction false} ToolLoopFault(calls: seq<ToolCall>, k: nat, reply: nat -> Turn, search: string -> string)
    ensures
      var p := ToolLoop(calls, k, reply, search);
      var n := |WebSearchInputs(calls)|;
      var f := FirstFailure(reply, k, n);
      && p.fault == (if f < n then reply(k + f).fault else None)
      && |p.searches| == (if f < n then f + 1 else n)
    decreases |calls|
  {
    if calls == [] {
    } else if calls[0].name != WebSearchName {
      assert ToolLoop(calls, k, reply, search) == ToolLoop(calls[1..], k, reply, search);
      assert WebSearchInputs(calls) == WebSearchInputs(calls[1..]) by {
        assert WebSearchInputs(calls) == [] + WebSearchInputs(calls[1..]);
      }
      ToolLoopFault(calls[1..], k, reply, search);
    } else {
      var n := |WebSearchInputs(calls)|;
      assert n == 1 + |WebSearchInputs(calls[1..])| by {
        assert WebSearchInputs(calls) == [SearchInput(calls[0].args)] + WebSearchInputs(calls[1..]);
      }
      ToolLoopStep(calls, k, reply, search);
      if reply(k).fault.None? {
        assert FirstFailure(reply, k, n) == 1 + FirstFailure(reply, k + 1, n - 1);
        ToolLoopFault(calls[1..], k + 1, reply, search);
      }
    }
  }

  /** One `web_search` call of the loop: a throw ends the loop after its
      block, otherwise the loop goes on with the next continuation. */
  lemma ToolLoopStep(calls: seq<ToolCall>, k: nat, reply: nat -> Turn, search: string -> string)
    requires calls != [] && calls[0].name == WebSearchName
    ensures
      var p := ToolLoop(calls, k, reply, search);
      var rest := ToolLoop(calls[1..], k + 1, reply, search);
      && (reply(k).fault.Some? ==> p.fault == reply(k).fault && |p.searches| == 1)
      && (reply(k).fault.None? ==> p.fault == rest.fault && |p.searches| == 1 + |rest.searches|)
  {
  }


  /** The fixed intro is yielded exactly when the first turn's text is blank. */
  lemma IntroIffBlank(chunks: seq<Chunk>)
    ensures Intro(chunks) == [] || Intro(chunks) == [TextEvent(Reasoning, SearchIntro)]
    ensures Intro(chunks) != [] <==> Strings.Trim(TurnText(chunks)) == ""
  {
    HasTextIffText(chunks);
  }

  /** After a first turn without a throw, the tool events of the decision are
      the pending and completed pair of each search it made. */
  lemma DecideToolEvents(chunks: seq<Chunk>, reply: nat -> Turn, search: string -> string)
    ensures ToolEvents(Decide(chunks, reply, search).events) == ToolPairs(Decide(chunks, reply, search).searches, search)
  {
    var d := Decide(chunks, reply, search);
    var calls := TurnCalls(chunks);
    if |calls| > 0 {
      var loop := ToolLoop(calls, 0, reply, search);
      assert d.events == Intro(chunks) + loop.events && d.searches == loop.searches;
      ToolLoopSearches(calls, 0, reply, search);
      BlocksToolEvents(loop.searches, 0, reply, search);
      IntroIffBlank(chunks);
      NoToolEvents(Intro(chunks));
      ToolEventsAppend(Intro(chunks), loop.events);
    } else {
      NoToolEvents(d.events);
    }
  }

  /** Whatever happens, the `tool_call` events of a run are exactly one
      pending and one completed event per search invocation, in invocation
      order, each completed one carrying what the tool returned. */
  lemma SearchesMatchToolEvents(prompt: string, b: Backend)
    ensures ToolEvents(Stream(prompt, b).events) == ToolPairs(Stream(prompt, b).searches, b.search)
  {
    if Truthy(b.apiKey) {
      var turn := b.first(prompt);
      var streamed := TextEvents(turn.chunks, Reasoning);
      TextEventsHaveNoTools(turn.chunks, Reasoning);
      if turn.fault.Some? {
        ToolEventsAppend(streamed, [ErrorResponse(turn.fault.value)]);
      } else {
        var p := Decide(turn.chunks, b.reply, b.search);
        var tail := FaultTail(p.fault);
        assert Stream(prompt, b) == Run(streamed + p.events + tail, p.searches, None);
        NoToolEvents(tail);
        DecideToolEvents(turn.chunks, b.reply, b.search);
        ToolEventsAppend(streamed + p.events, tail);
        ToolEventsAppend(streamed, p.events);
      }
    }
  }

  /** Every `tool_call` a run yields is one of the two pair events of a
      search, so it names `web_search`. */
  lemma {:induction false} ToolPairsNamed(qs: seq<string>, search: string -> string)
    ensures forall e :: e in ToolPairs(qs, search) ==> e.tool == Some(WebSearchName)
    decreases |qs|
  {
    if qs != [] {
      ToolPairsNamed(qs[1..], search);
    }
  }

  lemma {:induction false} ToolEventsKeepTools(events: seq<StreamEvent>)
    ensures forall i :: 0 <= i < |events| && events[i].kind == ToolInvocation ==> events[i] in ToolEvents(events)
    decreases |events|
  {
    if events != [] {
      ToolEventsKeepTools(events[1..]);
      assert forall i :: 1 <= i < |events| ==> events[i] == events[1..][i - 1];
    }
  }

  /** Every `tool_call` event of a run names a function of the registry. */
  lemma StreamToolsRegistered(prompt: string, b: Backend)
    ensures ToolsRegistered(Stream(prompt, b).events)
  {
    var r := Stream(prompt, b);
    SearchesMatchToolEvents(prompt, b);
    ToolPairsNamed(r.searches, b.search);
    ToolEventsKeepTools(r.events);
    assert FunctionDeclarations[0].name == WebSearchName;
  }

  /** Once the first turn is drained without a throw, a run is its
      reasoning, the decision's events and the decision's throw, if any. */
  lemma StreamAfterFirstTurn(prompt: string, b: Backend)
    requires Truthy(b.apiKey) && b.first(prompt).fault.None?
    ensures
      var chunks := b.first(prompt).chunks;
      var d := Decide(chunks, b.reply, b.search);
      Stream(prompt, b) == Run(TextEvents(chunks, Reasoning) + d.events + FaultTail(d.fault), d.searches, None)
  {
  }

  /** The decision for a first turn with calls: the intro when its text was
      blank, then one block per `web_search` input in order up to the first
      continuation that throws, and that throw. */
  lemma DecideToolPath(chunks: seq<Chunk>, reply: nat -> Turn, search: string -> string)
    requires |TurnCalls(chunks)| > 0
    ensures
      var d := Decide(chunks, reply, search);
      var qs := WebSearchInputs(TurnCalls(chunks));
      var f := FirstFailure(reply, 0, |qs|);
      && d.searches == qs[..if f < |qs| then f + 1 else |qs|]
      && d.events == Intro(chunks) + Blocks(d.searches, 0, reply, search)
      && d.fault == (if f < |qs| then reply(f).fault else None)
  {
    var calls := TurnCalls(chunks);
    var p := ToolLoop(calls, 0, reply, search);
    assert Decide(chunks, reply, search) == Phase(Intro(chunks) + p.events, p.searches, p.fault);
    LoopPath(calls, reply, search);
  }

  /** The loop from the first continuation: the searches up to the first
      throw, one block each, and that throw. */
  lemma LoopPath(calls: seq<ToolCall>, reply: nat -> Turn, search: string -> string)
    ensures
      var p := ToolLoop(calls, 0, reply, search);
      var qs := WebSearchInputs(calls);
      var f := FirstFailure(reply, 0, |qs|);
      && p.searches == qs[..if f < |qs| then f + 1 else |qs|]
      && p.events == Blocks(p.searches, 0, reply, search)
      && p.fault == (if f < |qs| then reply(f).fault else None)
  {
    var p := ToolLoop(calls, 0, reply, search);
    var qs := WebSearchInputs(calls);
    var f := FirstFailure(reply, 0, |qs|);
    assert p.searches == qs[..|p.searches|] && p.events == Blocks(p.searches, 0, reply, search) by {
      ToolLoopSearches(calls, 0, reply, search);
    }
    assert |p.searches| == (if f < |qs| then f + 1 else |qs|)
        && p.fault == (if f < |qs| then reply(f).fault else None) by {
      ToolLoopFault(calls, 0, reply, search);
    }
  }


  /** With tool calls in the first turn: its reasoning, the intro when its
      text was blank, then one block per `web_search` input in order up to
      the first continuation that throws; that throw, if any, ends the run
      with one `Error: ` response. */
  lemma ToolPath(prompt: string, b: Backend)
    requires Truthy(b.apiKey) && b.first(prompt).fault.None?
    requires |TurnCalls(b.first(prompt).chunks)| > 0
    ensures
      var r := Stream(prompt, b);
      var chunks := b.first(prompt).chunks;
      var qs := WebSearchInputs(TurnCalls(chunks));
      var f := FirstFailure(b.reply, 0, |qs|);
      && r.searches == qs[..if f < |qs| then f + 1 else |qs|]
      && r.events == TextEvents(chunks, Reasoning) + Intro(chunks) + Blocks(r.searches, 0, b.reply, b.search)
           + (if f < |qs| then FaultTail(b.reply(f).fault) else [])
  {
    var chunks := b.first(prompt).chunks;
    var qs := WebSearchInputs(TurnCalls(chunks));
    var f := FirstFailure(b.reply, 0, |qs|);
    var d := Decide(chunks, b.reply, b.search);
    var r := Stream(prompt, b);
    StreamAfterFirstTurn(prompt, b);
    DecideToolPath(chunks, b.reply, b.search);
    ComposeRun(r, TextEvents(chunks, Reasoning), d, Intro(chunks), Blocks(d.searches, 0, b.reply, b.search),
               if f < |qs| then FaultTail(b.reply(f).fault) else []);
  }

  /** A run made of the streamed text, then a phase made of two parts and
      its throw. */
  lemma ComposeRun(r: Run, streamed: seq<StreamEvent>, d: Phase, intro: seq<StreamEvent>, blocks: seq<StreamEvent>, tail: seq<StreamEvent>)
    requires r.events == streamed + d.events + FaultTail(d.fault)
    requires d.events == intro + blocks && FaultTail(d.fault) == tail
    ensures r.events == streamed + intro + blocks + tail
  {
    AppendAssoc(streamed, intro, blocks, tail);
  }

  lemma AppendAssoc(a: seq<StreamEvent>, b: seq<StreamEvent>, c: seq<StreamEvent>, d: seq<StreamEvent>)
    ensures a + (b + c) + d == a + b + c + d
  {
  }

  /** When the first turn throws, whether it fails to start or breaks off
      while being drained, the run is the reasoning drained so far and then
      one `Error: ` response. None of the turn's calls is acted on, and the
      throw does not escape the generator. */
  lemma FirstTurnThrows(prompt: string, b: Backend)
    requires Truthy(b.apiKey) && b.first(prompt).fault.Some?
    ensures
      var r := Stream(prompt, b);
      var turn := b.first(prompt);
      && r.events == TextEvents(turn.chunks, Reasoning) + [ErrorResponse(turn.fault.value)]
      && r.events[|r.events| - 1].kind == Response
      && r.events[|r.events| - 1].content == Some(ErrorPrefix + FaultMessage(turn.fault.value))
      && r.searches == [] && r.escaped.None?
      && ToolEvents(r.events) == []
  {
    var turn := b.first(prompt);
    var streamed := TextEvents(turn.chunks, Reasoning);
    TextEventsHaveNoTools(turn.chunks, Reasoning);
    ToolEventsAppend(streamed, [ErrorResponse(turn.fault.value)]);
  }

  /** Without tool calls and with text, the run is the streamed reasoning
      followed by exactly one `response` whose content is everything the
      reasoning events said, and no tool is used. */
  lemma DirectAnswer(prompt: string, b: Backend)
    requires Truthy(b.apiKey) && b.first(prompt).fault.None?
    requires TurnCalls(b.first(prompt).chunks) == [] && TurnText(b.first(prompt).chunks) != ""
    ensures
      var r := Stream(prompt, b);
      var streamed := TextEvents(b.first(prompt).chunks, Reasoning);
      && r.events == streamed + [TextEvent(Response, Transcript(streamed))]
      && r.searches == []
      && ToolEvents(r.events) == []
  {
    var streamed := TextEvents(b.first(prompt).chunks, Reasoning);
    TextEventsHaveNoTools(b.first(prompt).chunks, Reasoning);
    ToolEventsAppend(streamed, [TextEvent(Response, Transcript(streamed))]);
  }

  lemma {:induction false} BlankTurnHasNoTexts(chunks: seq<Chunk>)
    requires TurnText(chunks) == ""
    ensures NonEmptyTexts(chunks) == []
    decreases |chunks|
  {
    if chunks != [] {
      BlankTurnHasNoTexts(chunks[1..]);
    }
  }

  /** A first turn with neither text nor calls yields only the fixed apology. */
  lemma SilentTurn(prompt: string, b: Backend)
    requires Truthy(b.apiKey) && b.first(prompt).fault.None?
    requires TurnCalls(b.first(prompt).chunks) == [] && TurnText(b.first(prompt).chunks) == ""
    ensures Stream(prompt, b).events == [TextEvent(Response, NoAnswer)]
    ensures Stream(prompt, b).searches == []
  {
    var chunks := b.first(prompt).chunks;
    HasTextIffText(chunks);
    BlankTurnHasNoTexts(chunks);
    TextEventsCarryChunks(chunks, Reasoning);
  }

  /** Without tool calls a run always ends in exactly one `response` and
      nothing precedes it but the streamed reasoning. */
  lemma NoCallsOneResponse(prompt: string, b: Backend)
    requires Truthy(b.apiKey) && b.first(prompt).fault.None?
    requires TurnCalls(b.first(prompt).chunks) == []
    ensures
      var r := Stream(prompt, b);
      var streamed := TextEvents(b.first(prompt).chunks, Reasoning);
      |r.events| == |streamed| + 1 && r.events[..|streamed|] == streamed
        && r.events[|streamed|].kind == Response
  {
    HasTextIffText(b.first(prompt).chunks);
  }

  // ----------------------------------------------- calls that change nothing

  function StripCalls(chunks: seq<Chunk>): (r: seq<Chunk>)
    ensures |r| == |chunks|
    ensures forall i :: 0 <= i < |r| ==> r[i] == Chunk(chunks[i].text, [])
    decreases |chunks|
  {
    if chunks == [] then [] else [Chunk(chunks[0].text, [])] + StripCalls(chunks[1..])
  }

  lemma {:induction false} StripCallsKeepsText(chunks: seq<Chunk>, kind: StreamEventType)
    ensures TextEvents(StripCalls(chunks), kind) == TextEvents(chunks, kind)
    decreases |chunks|
  {
    if chunks != [] {
      assert StripCalls(chunks)[1..] == StripCalls(chunks[1..]);
      StripCallsKeepsText(chunks[1..], kind);
    }
  }

  /** Function calls in continuation turns are never acted on: removing them
      from every continuation changes nothing about the tool loop. */
  lemma {:induction false} ContinuationCallsIgnored(calls: seq<ToolCall>, k: nat, reply: nat -> Turn, search: string -> string)
    ensures ToolLoop(calls, k, reply, search)
         == ToolLoop(calls, k, (n: nat) => Turn(StripCalls(reply(n).chunks), reply(n).fault), search)
    decreases |calls|
  {
    if calls != [] {
      StripCallsKeepsText(reply(k).chunks, Response);
      ContinuationCallsIgnored(calls[1..], k, reply, search);
      ContinuationCallsIgnored(calls[1..], k + 1, reply, search);
    }
  }

  /** The calls of the first turn that name `web_search`, in order. */
  function WebSearchCalls(calls: seq<ToolCall>): seq<ToolCall>
    decreases |calls|
  {
    if calls == [] then []
    else (if calls[0].name == WebSearchName then [calls[0]] else []) + WebSearchCalls(calls[1..])
  }

  /** Calls to functions other than `web_search` yield no event and no
      search: dropping them changes nothing. */
  lemma {:induction false} OtherCallsIgnored(calls: seq<ToolCall>, k: nat, reply: nat -> Turn, search: string -> string)
    ensures ToolLoop(calls, k, reply, search) == ToolLoop(WebSearchCalls(calls), k, reply, search)
    decreases |calls|
  {
    if calls != [] {
      var w := WebSearchCalls(calls);
      if calls[0].name == WebSearchName {
        assert w == [calls[0]] + WebSearchCalls(calls[1..]);
        assert w[0] == calls[0] && w[1..] == WebSearchCalls(calls[1..]);
        OtherCallsIgnored(calls[1..], k + 1, reply, search);
      } else {
        assert w == WebSearchCalls(calls[1..]);
        OtherCallsIgnored(calls[1..], k, reply, search);
      }
    }
  }

  // ------------------------------------------------------------- scenarios

  /** A question answered from the model's own knowledge: the text is
      streamed as reasoning and then repeated once as the response. */
  lemma DirectScenario()
    ensures
      var b := Backend(Some("key"), (p: string) => Turn([Chunk("4", [])], None),
                       (k: nat) => Turn([], None), (q: string) => "");
      Stream("2+2?", b).events == [TextEvent(Reasoning, "4"), TextEvent(Response, "4")]
  {
    var chunks := [Chunk("4", [])];
    assert chunks[1..] == [];
    assert TurnCalls(chunks) == [];
    assert TurnText(chunks) == "4";
  }

  /** A question that needs the web: intro, pending and completed
      `tool_call`, then the continuation's answer. */
  lemma SearchScenario()
    ensures
      var call := ToolCall(WebSearchName, [("query", "weather in Paris")]);
      var b := Backend(Some("key"), (p: string) => Turn([Chunk("", [call])], None),
                       (k: nat) => Turn([Chunk("It is sunny and 20C in Paris.", [])], None),
                       (q: string) => "Sunny, 20C");
      Stream("current weather in Paris", b).events == [
        TextEvent(Reasoning, SearchIntro),
        ToolEvent(WebSearchName, "weather in Paris", Null),
        ToolEvent(WebSearchName, "weather in Paris", Text("Sunny, 20C")),
        TextEvent(Response, "It is sunny and 20C in Paris.")]
  {
    var call := ToolCall(WebSearchName, [("query", "weather in Paris")]);
    var chunks := [Chunk("", [call])];
    var answer := [Chunk("It is sunny and 20C in Paris.", [])];
    var b := Backend(Some("key"), (p: string) => Turn(chunks, None),
                     (k: nat) => Turn(answer, None), (q: string) => "Sunny, 20C");
    assert chunks[1..] == [] && answer[1..] == [];
    assert TurnCalls(chunks) == [call];
    assert [call][1..] == [];
    assert TurnText(chunks) == "";
    assert !HasText(chunks);
    assert TextEvents(chunks, Reasoning) == [];
    assert Get(call.args, "query") == Some("weather in Paris");
    assert SearchInput(call.args) == "weather in Paris";
    var blk := Block("weather in Paris", "Sunny, 20C", Turn(answer, None));
    assert TextEvents(answer, Response) == [TextEvent(Response, "It is sunny and 20C in Paris.")];
    assert ToolLoop([call], 0, b.reply, b.search) == Phase(blk, ["weather in Paris"], None);
    assert Decide(chunks, b.reply, b.search) == Phase(Intro(chunks) + blk, ["weather in Paris"], None);
  }
}

=== FILE: json.dfy ===
/** `JSON.stringify` for the flat objects the program serialises (every
    member a string or `null`, members in insertion order), and a parser for
    exactly that form. The round trip `Decode(Encode(w)) == Some(w)` makes
    the encoding injective; together with the absence of raw line breaks it
    is all the frame codec needs from JSON. */
module Json {
  import opened Types
  import Strings

  /** A member value: a string or `null`. */
  datatype Value = JStr(s: string) | JNull

  type Member = (string, Value)

  function HexDigit(d: nat): char
    requires d < 16
  {
    "0123456789abcdef"[d]
  }

  function HexValue(c: char): (r: Option<nat>)
    ensures r.Some? ==> r.value < 16
  {
    if '0' <= c <= '9' then Some(c as int - '0' as int)
    else if 'a' <= c <= 'f' then Some(c as int - 'a' as int + 10)
    else if 'A' <= c <= 'F' then Some(c as int - 'A' as int + 10)
    else None
  }

  lemma HexDigitValue(d: nat)
    requires d < 16
    ensures HexValue(HexDigit(d)) == Some(d)
  {
  }

  /** How `JSON.stringify` writes one character inside a string literal:
      quote and backslash escaped, the five control characters with short
      escapes, every other control character as `\u00xx`, the rest as is. */
  function EscapeChar(c: char): string {
    if c == '"' then "\\\""
    else if c == '\\' then "\\\\"
    else if c as int == 0x08 then "\\b"
    else if c as int == 0x0C then "\\f"
    else if c == '\n' then "\\n"
    else if c == '\r' then "\\r"
    else if c == '\t' then "\\t"
    else if c as int < 0x20 then "\\u00" + [HexDigit(c as int / 16), HexDigit(c as int % 16)]
    else [c]
  }

  function Escape(s: string): string
    decreases |s|
  {
    if s == [] then "" else EscapeChar(s[0]) + Escape(s[1..])
  }

  /** A string literal. */
  function Quote(s: string): string {
    "\"" + Escape(s) + "\""
  }

  function EncodeValue(v: Value): string {
    match v
    case JStr(s) => Quote(s)
    case JNull => "null"
  }

  function EncodeMember(m: Member): string {
    Quote(m.0) + ":" + EncodeValue(m.1)
  }

  /** The members after the first, each introduced by a comma. */
  function EncodeTail(ms: seq<Member>): string
    decreases |ms|
  {
    if ms == [] then "" else "," + EncodeMember(ms[0]) + EncodeTail(ms[1..])
  }

  /** `JSON.stringify` of an object whose members are `ms`, in order. */
  function EncodeObject(ms: seq<Member>): string {
    if ms == [] then "{}" else "{" + EncodeMember(ms[0]) + EncodeTail(ms[1..]) + "}"
  }

  // ---------------------------------------------------------------- parsing

  /** The character an escape sequence stands for (after its backslash), and
      how many characters the sequence takes. */
  function Unescape(s: string): (r: Option<(char, nat)>)
    ensures r.Some? ==> 1 <= r.value.1 <= |s|
  {
    if s == [] then None
    else if s[0] == '"' || s[0] == '\\' || s[0] == '/' then Some((s[0], 1))
    else if s[0] == 'b' then Some((0x08 as char, 1))
    else if s[0] == 'f' then Some((0x0C as char, 1))
    else if s[0] == 'n' then Some(('\n', 1))
    else if s[0] == 'r' then Some(('\r', 1))
    else if s[0] == 't' then Some(('\t', 1))
    else if s[0] == 'u' && |s| >= 5 then
      match (HexValue(s[1]), HexValue(s[2]), HexValue(s[3]), HexValue(s[4]))
      case (Some(a), Some(b), Some(c), Some(d)) =>
        var v := ((a * 16 + b) * 16 + c) * 16 + d;
        if 0xD800 <= v < 0xE000 then None else Some((v as char, 5))
      case _ => None
    else None
  }

  /** Reads the body of a string literal up to its closing quote: the text it
      denotes and whatever follows the quote. */
  function ParseChars(s: string): Option<(string, string)>
    decreases |s|
  {
    if s == [] then None
    else if s[0] == '"' then Some(("", s[1..]))
    else if s[0] == '\\' then
      match Unescape(s[1..])
      case None => None
      case Some((c, n)) =>
        match ParseChars(s[1 + n..])
        case None => None
        case Some((t, rest)) => Some(([c] + t, rest))
    else if s[0] as int < 0x20 then None
    else
      match ParseChars(s[1..])
      case None => None
      case Some((t, rest)) => Some(([s[0]] + t, rest))
  }

  function ParseString(s: string): Option<(string, string)> {
    if s != [] && s[0] == '"' then ParseChars(s[1..]) else None
  }

  function ParseValue(s: string): Option<(Value, string)> {
    if Strings.StartsWith(s, "null") then Some((JNull, s[4..]))
    else
      match ParseString(s)
      case None => None
      case Some((t, rest)) => Some((JStr(t), rest))
  }

  function ParseMember(s: string): Option<(Member, string)> {
    match ParseString(s)
    case None => None
    case Some((k, r)) =>
      if r != [] && r[0] == ':' then
        match ParseValue(r[1..])
        case None => None
        case Some((v, rest)) => Some(((k, v), rest))
      else None
  }

  /** Members introduced by commas, up to and including the closing brace. */
  function ParseTail(s: string): Option<(seq<Member>, string)>
    decreases |s|
  {
    if s != [] && s[0] == '}' then Some(([], s[1..]))
    else if s != [] && s[0] == ',' then
      match ParseMember(s[1..])
      case None => None
      case Some((m, r)) =>
        if |r| < |s| then
          match ParseTail(r)
          case None => None
          case Some((ms, rest)) => Some(([m] + ms, rest))
        else None
    else None
  }

  function ParseObject(s: string): Option<(seq<Member>, string)> {
    if Strings.StartsWith(s, "{}") then Some(([], s[2..]))
    else if s != [] && s[0] == '{' then
      match ParseMember(s[1..])
      case None => None
      case Some((m, r)) =>
        match ParseTail(r)
        case None => None
        case Some((ms, rest)) => Some(([m] + ms, rest))
    else None
  }

  // ----------------------------------------------------- parsing inverts encoding

  lemma EscapeCharParses(c: char, tail: string)
    ensures ParseChars(EscapeChar(c) + tail) ==
      match ParseChars(tail)
      case None => None
      case Some((t, rest)) => Some(([c] + t, rest))
  {
    if c == '"' || c == '\\' || c as int == 0x08 || c as int == 0x0C || c == '\n' || c == '\r' || c == '\t' {
      ShortEscapeParses(c, tail);
    } else if c as int < 0x20 {
      HexEscapeParses(c, tail);
    } else {
      PlainCharParses(c, tail);
    }
  }

  lemma HexEscapeParses(c: char, tail: string)
    requires c as int < 0x20 && !(c == '"' || c == '\\' || c as int == 0x08 || c as int == 0x0C || c == '\n' || c == '\r' || c == '\t')
    ensures ParseChars(EscapeChar(c) + tail) ==
      match ParseChars(tail)
      case None => None
      case Some((t, rest)) => Some(([c] + t, rest))
  {
    var s := EscapeChar(c) + tail;
    var hi, lo := c as int / 16, c as int % 16;
    HexDigitValue(hi);
    HexDigitValue(lo);
    HexDigitValue(0);
    assert s[1..] == "u00" + [HexDigit(hi), HexDigit(lo)] + tail;
    assert Unescape(s[1..]) == Some((c, 5));
    assert s[6..] == tail;
  }

  lemma ShortEscapeParses(c: char, tail: string)
    requires c == '"' || c == '\\' || c as int == 0x08 || c as int == 0x0C || c == '\n' || c == '\r' || c == '\t'
    ensures ParseChars(EscapeChar(c) + tail) ==
      match ParseChars(tail)
      case None => None
      case Some((t, rest)) => Some(([c] + t, rest))
  {
    var e := EscapeChar(c);
    var s := e + tail;
    assert s[1..] == [e[1]] + tail;
    assert s[2..] == tail;
  }

  lemma PlainCharParses(c: char, tail: string)
    requires c as int >= 0x20 && c != '"' && c != '\\'
    ensures ParseChars(EscapeChar(c) + tail) ==
      match ParseChars(tail)
      case None => None
      case Some((t, rest)) => Some(([c] + t, rest))
  {
    var s := EscapeChar(c) + tail;
    assert s[1..] == tail;
  }

  lemma {:induction false} EscapeParses(x: string, rest: string)
    ensures ParseChars(Escape(x) + "\"" + rest) == Some((x, rest))
    decreases |x|
  {
    if x == [] {
      assert Escape(x) + "\"" + rest == "\"" + rest;
    } else {
      assert Escape(x) + "\"" + rest == EscapeChar(x[0]) + (Escape(x[1..]) + "\"" + rest);
      EscapeParses(x[1..], rest);
      EscapeCharParses(x[0], Escape(x[1..]) + "\"" + rest);
      assert [x[0]] + x[1..] == x;
    }
  }

  lemma QuoteParses(x: string, rest: string)
    ensures ParseString(Quote(x) + rest) == Some((x, rest))
  {
    assert (Quote(x) + rest)[1..] == Escape(x) + "\"" + rest;
    EscapeParses(x, rest);
  }

  lemma ValueParses(v: Value, rest: string)
    ensures ParseValue(EncodeValue(v) + rest) == Some((v, rest))
  {
    var s := EncodeValue(v) + rest;
    match v
    case JNull =>
      assert s[..4] == "null" && s[4..] == rest;
    case JStr(t) =>
      assert s[0] == '"';
      QuoteParses(t, rest);
  }

  lemma MemberParses(m: Member, rest: string)
    ensures ParseMember(EncodeMember(m) + rest) == Some((m, rest))
  {
    var v := EncodeValue(m.1) + rest;
    assert EncodeMember(m) + rest == Quote(m.0) + (":" + v);
    QuoteParses(m.0, ":" + v);
    assert (":" + v)[1..] == v;
    ValueParses(m.1, rest);
  }

  lemma {:induction false} TailParses(ms: seq<Member>, rest: string)
    ensures ParseTail(EncodeTail(ms) + "}" + rest) == Some((ms, rest))
    decreases |ms|
  {
    var s := EncodeTail(ms) + "}" + rest;
    if ms == [] {
      assert s == "}" + rest;
    } else {
      var after := EncodeTail(ms[1..]) + "}" + rest;
      TailUnfold(ms, rest);
      assert ParseMember(s[1..]) == Some((ms[0], after)) by {
        MemberParses(ms[0], after);
      }
      assert ParseTail(after) == Some((ms[1..], rest)) by {
        TailParses(ms[1..], rest);
      }
      CommaStep(s, ms[0], after, ms[1..], rest);
      assert [ms[0]] + ms[1..] == ms;
    }
  }

  lemma TailUnfold(ms: seq<Member>, rest: string)
    requires ms != []
    ensures
      var s := EncodeTail(ms) + "}" + rest;
      var after := EncodeTail(ms[1..]) + "}" + rest;
      s != [] && s[0] == ',' && s[1..] == EncodeMember(ms[0]) + after && |after| < |s|
  {
    var m := EncodeMember(ms[0]);
    assert EncodeTail(ms) == "," + m + EncodeTail(ms[1..]);
    PrefixStep(",", m, EncodeTail(ms[1..]), "}", rest);
  }

  /** Re-brackets `p + x + y + c + z` and drops its one-character head. */
  lemma PrefixStep(p: string, x: string, y: string, c: string, z: string)
    requires |p| == 1
    ensures p + x + y + c + z == p + (x + (y + c + z))
    ensures (p + (x + (y + c + z)))[0] == p[0]
    ensures (p + (x + (y + c + z)))[1..] == x + (y + c + z)
  {
  }

  /** One step of ParseTail: a comma, a member, then the rest of the tail. */
  lemma CommaStep(s: string, m: Member, after: string, ms: seq<Member>, rest: string)
    requires s != [] && s[0] == ','
    requires ParseMember(s[1..]) == Some((m, after)) && |after| < |s|
    requires ParseTail(after) == Some((ms, rest))
    ensures ParseTail(s) == Some(([m] + ms, rest))
  {
  }

  lemma ObjectParses(ms: seq<Member>, rest: string)
    ensures ParseObject(EncodeObject(ms) + rest) == Some((ms, rest))
  {
    if ms == [] {
      assert (EncodeObject(ms) + rest)[2..] == rest;
    } else {
      NonEmptyObjectParses(ms, rest);
    }
  }

  lemma NonEmptyObjectParses(ms: seq<Member>, rest: string)
    requires ms != []
    ensures ParseObject(EncodeObject(ms) + rest) == Some((ms, rest))
  {
    var after := EncodeTail(ms[1..]) + "}" + rest;
    var inner := EncodeMember(ms[0]) + after;
    PrefixStep("{", EncodeMember(ms[0]), EncodeTail(ms[1..]), "}", rest);
    assert inner[0] == Quote(ms[0].0)[0] == '"';
    OpenBraceParses(inner);
    MemberParses(ms[0], after);
    TailParses(ms[1..], rest);
    assert [ms[0]] + ms[1..] == ms;
  }

  lemma OpenBraceParses(inner: string)
    requires inner != [] && inner[0] == '"'
    ensures ParseObject("{" + inner) ==
      match ParseMember(inner)
      case None => None
      case Some((m, r)) =>
        match ParseTail(r)
        case None => None
        case Some((ms, rest)) => Some(([m] + ms, rest))
  {
    var s := "{" + inner;
    assert s[1..] == inner;
    assert !Strings.StartsWith(s, "{}") by {
      assert s[1] == inner[0];
    }
  }

  // ------------------------------------------------------------------ events

  /** The `type` member's text for each tag. */
  function TypeTag(k: StreamEventType): string {
    match k
    case Reasoning => "reasoning"
    case ToolInvocation => "tool_call"
    case Response => "response"
  }

  const ErrorTag := "error"

  function KindOf(tag: string): Option<StreamEventType> {
    if tag == "reasoning" then Some(Reasoning)
    else if tag == "tool_call" then Some(ToolInvocation)
    else if tag == "response" then Some(Response)
    else None
  }

  function Optional(key: string, o: Option<string>): seq<Member> {
    match o
    case Some(v) => [(key, JStr(v))]
    case None => []
  }

  function OutputMember(o: Output): seq<Member> {
    match o
    case Absent => []
    case Null => [("output", JNull)]
    case Text(v) => [("output", JStr(v))]
  }

  /** The members of an event object in the order the program creates them:
      `type` first, then whichever of `content`, `tool`, `input`, `output`
      are present (`undefined` members are left out by `JSON.stringify`). */
  function EventMembers(e: StreamEvent): seq<Member> {
    [("type", JStr(TypeTag(e.kind)))] + Optional("content", e.content)
      + Optional("tool", e.tool) + Optional("input", e.input) + OutputMember(e.output)
  }

  function WireMembers(w: WireEvent): seq<Member> {
    match w
    case Event(e) => EventMembers(e)
    case ErrorEvent(c) => [("type", JStr(ErrorTag)), ("content", JStr(c))]
  }

  /** `JSON.stringify` of a frame's object. */
  function Encode(w: WireEvent): string {
    EncodeObject(WireMembers(w))
  }

  /** `JSON.stringify` of a tool's argument record. */
  function EncodeArgs(args: Args): string {
    EncodeObject(seq(|args|, i requires 0 <= i < |args| => (args[i].0, JStr(args[i].1))))
  }

  function Lookup(ms: seq<Member>, key: string): Option<Value>
    decreases |ms|
  {
    if ms == [] then None
    else if ms[0].0 == key then Some(ms[0].1)
    else Lookup(ms[1..], key)
  }

  function StrMember(ms: seq<Member>, key: string): Option<string> {
    match Lookup(ms, key)
    case Some(JStr(v)) => Some(v)
    case _ => None
  }

  function OutputOf(ms: seq<Member>): Output {
    match Lookup(ms, "output")
    case Some(JStr(v)) => Text(v)
    case Some(JNull) => Null
    case None => Absent
  }

  /** The frame object the members describe, if they are in the form the
      encoder writes. */
  function FromMembers(ms: seq<Member>): Option<WireEvent> {
    match StrMember(ms, "type")
    case None => None
    case Some(tag) =>
      if tag == ErrorTag then
        match StrMember(ms, "content")
        case None => None
        case Some(c) => if WireMembers(ErrorEvent(c)) == ms then Some(ErrorEvent(c)) else None
      else
        match KindOf(tag)
        case None => None
        case Some(k) =>
          var e := StreamEvent(k, StrMember(ms, "content"), StrMember(ms, "tool"),
                               StrMember(ms, "input"), OutputOf(ms));
          if EventMembers(e) == ms then Some(Event(e)) else None
  }

  /** A parser for the text `Encode` writes; anything else fails. */
  function Decode(s: string): Option<WireEvent> {
    match ParseObject(s)
    case Some((ms, rest)) => if rest == [] then FromMembers(ms) else None
    case None => None
  }

  lemma {:induction false} LookupAppend(a: seq<Member>, b: seq<Member>, key: string)
    ensures Lookup(a + b, key) == if Lookup(a, key).Some? then Lookup(a, key) else Lookup(b, key)
    decreases |a|
  {
    if a == [] {
      assert a + b == b;
    } else {
      assert (a + b)[0] == a[0] && (a + b)[1..] == a[1..] + b;
      LookupAppend(a[1..], b, key);
    }
  }

  lemma LookupOne(m: Member, key: string)
    ensures Lookup([m], key) == if m.0 == key then Some(m.1) else None
  {
    assert [m][1..] == [];
  }

  /** Looking a key up in the members of an event: the key's own member if
      there is one, since no key occurs twice. */
  lemma EventLookup(e: StreamEvent, key: string)
    ensures Lookup(EventMembers(e), key) ==
      if key == "type" then Some(JStr(TypeTag(e.kind)))
      else Lookup(Optional("content", e.content) + Optional("tool", e.tool)
                  + Optional("input", e.input) + OutputMember(e.output), key)
  {
    var c, t, i, o := Optional("content", e.content), Optional("tool", e.tool),
                      Optional("input", e.input), OutputMember(e.output);
    var ty: seq<Member> := [("type", JStr(TypeTag(e.kind)))];
    assert EventMembers(e) == ty + (c + t + i + o);
    LookupAppend(ty, c + t + i + o, key);
    LookupOne(ty[0], key);
  }

  lemma EventMembersRead(e: StreamEvent)
    ensures StrMember(EventMembers(e), "type") == Some(TypeTag(e.kind))
    ensures StrMember(EventMembers(e), "content") == e.content
    ensures StrMember(EventMembers(e), "tool") == e.tool
    ensures StrMember(EventMembers(e), "input") == e.input
    ensures OutputOf(EventMembers(e)) == e.output
  {
    var c, t, i, o := Optional("content", e.content), Optional("tool", e.tool),
                      Optional("input", e.input), OutputMember(e.output);
    EventLookup(e, "type");
    EventLookup(e, "content");
    EventLookup(e, "tool");
    EventLookup(e, "input");
    EventLookup(e, "output");
    LookupAppend(c + t + i, o, "content");
    LookupAppend(c + t, i, "content");
    LookupAppend(c, t, "content");
    LookupAppend(c + t + i, o, "tool");
    LookupAppend(c + t, i, "tool");
    LookupAppend(c, t, "tool");
    LookupAppend(c + t + i, o, "input");
    LookupAppend(c + t, i, "input");
    LookupAppend(c + t + i, o, "output");
    LookupAppend(c + t, i, "output");
    LookupAppend(c, t, "output");
    if e.content.Some? { LookupOne(c[0], "content"); LookupOne(c[0], "tool"); LookupOne(c[0], "input"); LookupOne(c[0], "output"); }
    if e.tool.Some? { LookupOne(t[0], "tool"); LookupOne(t[0], "input"); LookupOne(t[0], "output"); }
    if e.input.Some? { LookupOne(i[0], "input"); LookupOne(i[0], "output"); }
    if o != [] { LookupOne(o[0], "output"); }
  }

  lemma FromMembersInverts(w: WireEvent)
    ensures FromMembers(WireMembers(w)) == Some(w)
  {
    match w
    case ErrorEvent(c) =>
      var ms := WireMembers(w);
      assert ms == [ms[0]] + [ms[1]];
      LookupAppend([ms[0]], [ms[1]], "content");
      LookupOne(ms[0], "content");
      LookupOne(ms[1], "content");
    case Event(e) =>
      EventMembersRead(e);
  }

  /** Reading back what the encoder wrote gives the frame object it was
      given: the encoding loses nothing. */
  lemma {:induction false} DecodeEncode(w: WireEvent)
    ensures Decode(Encode(w)) == Some(w)
  {
    ObjectParses(WireMembers(w), "");
    assert Encode(w) + "" == Encode(w);
    FromMembersInverts(w);
  }

  /** Different frame objects are written as different texts. */
  lemma EncodeInjective(v: WireEvent, w: WireEvent)
    requires Encode(v) == Encode(w)
    ensures v == w
  {
    DecodeEncode(v);
    DecodeEncode(w);
  }

  // ----------------------------------------------------------- text shape

  lemma {:induction false} EscapeHasNoLineBreak(s: string)
    ensures '\n' !in Escape(s)
    decreases |s|
  {
    if s != [] {
      var head, rest := EscapeChar(s[0]), Escape(s[1..]);
      assert '\n' !in head by {
        EscapeCharHasNoLineBreak(s[0]);
      }
      assert '\n' !in rest by {
        EscapeHasNoLineBreak(s[1..]);
      }
      assert Escape(s) == head + rest;
    }
  }

  lemma EscapeCharHasNoLineBreak(c: char)
    ensures '\n' !in EscapeChar(c)
  {
    if c as int < 0x20 && !(c == '"' || c == '\\' || c as int == 0x08 || c as int == 0x0C || c == '\n' || c == '\r' || c == '\t') {
      var e := EscapeChar(c);
      assert e == "\\u00" + [HexDigit(c as int / 16), HexDigit(c as int % 16)];
      HexDigitValue(c as int / 16);
      HexDigitValue(c as int % 16);
    }
  }

  lemma MemberHasNoLineBreak(m: Member)
    ensures '\n' !in EncodeMember(m)
  {
    EscapeHasNoLineBreak(m.0);
    match m.1
    case JStr(t) => EscapeHasNoLineBreak(t);
    case JNull =>
  }

  lemma {:induction false} TailHasNoLineBreak(ms: seq<Member>)
    ensures '\n' !in EncodeTail(ms)
    decreases |ms|
  {
    if ms != [] {
      MemberHasNoLineBreak(ms[0]);
      TailHasNoLineBreak(ms[1..]);
    }
  }

  /** What the serialiser writes for a frame object is one line: it contains
      no line feed, starts with `{` and ends with `}`. */
  lemma EncodeShape(w: WireEvent)
    ensures '\n' !in Encode(w)
    ensures |Encode(w)| >= 2 && Encode(w)[0] == '{' && Encode(w)[|Encode(w)| - 1] == '}'
  {
    assert WireMembers(w) != [];
    ObjectShape(WireMembers(w));
  }

  lemma ObjectShape(ms: seq<Member>)
    requires ms != []
    ensures '\n' !in EncodeObject(ms)
    ensures |EncodeObject(ms)| >= 2 && EncodeObject(ms)[0] == '{' && EncodeObject(ms)[|EncodeObject(ms)| - 1] == '}'
  {
    var inner := EncodeMember(ms[0]) + EncodeTail(ms[1..]);
    assert '\n' !in inner by {
      MemberHasNoLineBreak(ms[0]);
      TailHasNoLineBreak(ms[1..]);
    }
    assert EncodeObject(ms) == "{" + inner + "}";
  }
}

=== FILE: server.dfy ===
/** The `POST /chat` handler: rejects a request without a usable `query`
    with status 400, otherwise writes one server-sent-event frame per event
    of the generator, then the `[DONE]` marker, or, when the generator
    throws, one error frame instead of the marker. */
module Server {
  import opened Types
  import Strings
  import Json
  import opened Wire
  import Gemini

  const BadRequest: nat := 400
  const InvalidQuery := "Invalid request. 'query' field is required and must be a string."
  const StreamingErrorPrefix := "Streaming error: "

  /** The headers set before the first frame. */
  const EventStreamHeaders: seq<(string, string)> := [
    ("Content-Type", "text/event-stream"),
    ("Cache-Control", "no-cache"),
    ("Connection", "keep-alive"),
    ("X-Accel-Buffering", "no")
  ]

  /** What the handler sends: a JSON error body with a status, or a stream
      of writes after the event-stream headers. */
  datatype Reply =
    | Rejected(status: nat, error: string)
    | Streamed(headers: seq<(string, string)>, writes: seq<string>)

  /** `!query || typeof query !== "string"` rejects the request. */
  predicate Accepts(q: QueryField) {
    q.Given? && q.s != ""
  }

  /** One frame: `data: <json>` and a blank line. */
  function Frame(w: WireEvent): string {
    DataPrefix + Json.Encode(w) + "\n\n"
  }

  /** The frames of the events, in order. */
  function EventFrames(events: seq<StreamEvent>): (r: seq<string>)
    ensures |r| == |events|
    ensures forall i :: 0 <= i < |events| ==> r[i] == Frame(Event(events[i]))
    decreases |events|
  {
    if events == [] then [] else [Frame(Event(events[0]))] + EventFrames(events[1..])
  }

  /** The `{type: "error"}` object written when iterating the generator
      throws with `message`. */
  function StreamingError(message: string): WireEvent {
    ErrorEvent(StreamingErrorPrefix + message)
  }

  /** The last write: the end marker after a complete run, the error frame
      after a throw. */
  function Ending(escaped: Option<string>): string {
    match escaped
    case None => DoneFrame
    case Some(m) => Frame(StreamingError(m))
  }

  /** The handler for a request `req` against the backend `b`. */
  function Handle(req: ChatRequest, b: Gemini.Backend): (r: Reply)
    ensures r.Rejected? <==> !Accepts(req.query)
    ensures r.Rejected? ==> r.status == BadRequest && r.error == InvalidQuery
    ensures r.Streamed? ==> r.headers == EventStreamHeaders && |r.writes| >= 1
  {
    if !Accepts(req.query) then Rejected(BadRequest, InvalidQuery)
    else
      var run := Gemini.Stream(req.query.s, b);
      Streamed(EventStreamHeaders, EventFrames(run.events) + [Ending(run.escaped)])
  }

  // ------------------------------------------------------------------ lemmas

  /** No event frame can be mistaken for the end marker: the JSON text of
      every frame begins with a brace where the marker has a bracket. */
  lemma FrameIsNotDone(w: WireEvent)
    ensures Frame(w) != DoneFrame
  {
    var e := Json.Encode(w);
    assert e != [] && e[0] == '{' by {
      Json.EncodeShape(w);
    }
    BracedFrameNotDone(e);
  }

  lemma BracedFrameNotDone(e: string)
    requires e != [] && e[0] == '{'
    ensures DataPrefix + e + "\n\n" != DoneFrame
  {
    assert (DataPrefix + e + "\n\n")[|DataPrefix|] == e[0];
    assert DoneFrame[|DataPrefix|] == '[';
  }

  /** An accepted request streams exactly one frame per event, in order,
      then one last write: `[DONE]` exactly when the generator finished, the
      error frame with its message when it threw. */
  lemma HandleWrites(req: ChatRequest, b: Gemini.Backend)
    requires Accepts(req.query)
    ensures
      var run := Gemini.Stream(req.query.s, b);
      var w := Handle(req, b).writes;
      && |w| == |run.events| + 1
      && (forall i :: 0 <= i < |run.events| ==> w[i] == Frame(Event(run.events[i])))
      && (w[|w| - 1] == DoneFrame <==> run.escaped.None?)
      && (run.escaped.Some? ==> w[|w| - 1] == Frame(StreamingError(run.escaped.value)))
  {
    var run := Gemini.Stream(req.query.s, b);
    if run.escaped.Some? {
      FrameIsNotDone(StreamingError(run.escaped.value));
    }
  }

  /** The end marker is written at most once, only as the last write, and
      only when the generator ran to completion. */
  lemma DoneOnlyLast(req: ChatRequest, b: Gemini.Backend)
    requires Accepts(req.query)
    ensures
      var w := Handle(req, b).writes;
      forall i :: 0 <= i < |w| && w[i] == DoneFrame ==>
        i == |w| - 1 && Gemini.Stream(req.query.s, b).escaped.None?
  {
    var run := Gemini.Stream(req.query.s, b);
    var w := Handle(req, b).writes;
    HandleWrites(req, b);
    forall i | 0 <= i < |w| && w[i] == DoneFrame
      ensures i == |w| - 1 && run.escaped.None?
    {
      if i < |w| - 1 {
        FrameIsNotDone(Event(run.events[i]));
      }
    }
  }

  /** Without the backend key nothing is yielded; the request still streams,
      and its only write is the error frame naming the missing key. */
  lemma MissingKeyReply(req: ChatRequest, b: Gemini.Backend)
    requires Accepts(req.query) && !Truthy(b.apiKey)
    ensures Handle(req, b).writes == [Frame(StreamingError(Gemini.MissingKeyMessage))]
  {
    var run := Gemini.Stream(req.query.s, b);
    assert run.events == [] && run.escaped == Some(Gemini.MissingKeyMessage);
    assert EventFrames(run.events) == [];
  }
}

=== FILE: strings.dfy ===
/** The few JavaScript string operations the program relies on:
    `String.prototype.trim`, `split` on one character, `startsWith`,
    concatenation of many pieces, and decimal rendering of a number. */
module Strings {

  /** White space and line terminators as `trim` removes them. */
  predicate IsSpace(c: char) {
    var n := c as int;
    n == 0x09 || n == 0x0A || n == 0x0B || n == 0x0C || n == 0x0D || n == 0x20
    || n == 0xA0 || n == 0x1680 || (0x2000 <= n <= 0x200A) || n == 0x2028
    || n == 0x2029 || n == 0x202F || n == 0x205F || n == 0x3000 || n == 0xFEFF
  }

  predicate AllSpace(s: string) {
    forall i :: 0 <= i < |s| ==> IsSpace(s[i])
  }

  /** No white space at either end. */
  predicate Trimmed(s: string) {
    s == [] || (!IsSpace(s[0]) && !IsSpace(s[|s| - 1]))
  }

  predicate StartsWith(s: string, prefix: string) {
    |prefix| <= |s| && s[..|prefix|] == prefix
  }

  function TrimStart(s: string): (r: string)
    ensures |r| <= |s| && r == s[|s| - |r|..]
    ensures r == [] || !IsSpace(r[0])
    decreases |s|
  {
    if s != [] && IsSpace(s[0]) then TrimStart(s[1..]) else s
  }

  function TrimEnd(s: string): (r: string)
    ensures |r| <= |s| && r == s[..|r|]
    ensures r == [] || !IsSpace(r[|r| - 1])
    decreases |s|
  {
    if s != [] && IsSpace(s[|s| - 1]) then TrimEnd(s[..|s| - 1]) else s
  }

  /** `s.trim()`: the largest infix of `s` with nothing but white space
      around it. */
  function Trim(s: string): (r: string)
    ensures Trimmed(r)
    ensures |r| <= |s|
  {
    TrimEnd(TrimStart(s))
  }

  /** What `TrimStart` drops is white space. */
  lemma {:induction false} TrimStartDropsSpace(s: string)
    ensures AllSpace(s[..|s| - |TrimStart(s)|])
    decreases |s|
  {
    if s != [] && IsSpace(s[0]) {
      TrimStartDropsSpace(s[1..]);
      var k := |s| - |TrimStart(s)|;
      assert s[..k] == [s[0]] + s[1..][..k - 1];
    }
  }

  /** What `TrimEnd` drops is white space. */
  lemma {:induction false} TrimEndDropsSpace(s: string)
    ensures AllSpace(s[|TrimEnd(s)|..])
    decreases |s|
  {
    if s != [] && IsSpace(s[|s| - 1]) {
      var u := s[..|s| - 1];
      TrimEndDropsSpace(u);
      assert s[|TrimEnd(s)|..] == u[|TrimEnd(u)|..] + [s[|s| - 1]];
    }
  }

  /** Trimming leaves nothing exactly when the string is all white space. */
  lemma TrimBlank(s: string)
    ensures Trim(s) == [] <==> AllSpace(s)
  {
    var t := TrimStart(s);
    TrimStartDropsSpace(s);
    TrimEndDropsSpace(t);
    if Trim(s) == [] {
      assert s == s[..|s| - |t|] + t;
    }
  }

  /** Trimming a string that starts and ends with a non-space changes nothing. */
  lemma TrimOfTrimmed(s: string)
    requires Trimmed(s)
    ensures Trim(s) == s
  {
  }

  /** Trailing white space never eats into a prefix that ends in a non-space
      character, and leading white space cannot be removed before a prefix
      that starts with one. */
  lemma {:induction false} TrimKeepsPrefix(p: string, t: string)
    requires p != [] && !IsSpace(p[0]) && !IsSpace(p[|p| - 1])
    ensures StartsWith(Trim(p + t), p)
  {
    assert TrimStart(p + t) == p + t;
    TrimEndKeepsPrefix(p, t);
  }

  lemma {:induction false} TrimEndKeepsPrefix(p: string, t: string)
    requires p != [] && !IsSpace(p[|p| - 1])
    ensures StartsWith(TrimEnd(p + t), p)
    decreases |t|
  {
    var s := p + t;
    if t == [] {
      assert s == p;
    } else if IsSpace(s[|s| - 1]) {
      assert s[..|s| - 1] == p + t[..|t| - 1];
      TrimEndKeepsPrefix(p, t[..|t| - 1]);
    } else {
      assert TrimEnd(s) == s;
    }
  }

  /** `s.split(sep)` for a one-character separator: the pieces between
      separators, including empty ones, so there is always at least one. */
  function Split(s: string, sep: char): (r: seq<string>)
    ensures |r| >= 1
    decreases |s|
  {
    if s == [] then [""]
    else
      var rest := Split(s[1..], sep);
      if s[0] == sep then [""] + rest else [[s[0]] + rest[0]] + rest[1..]
  }

  /** Split loses nothing and keeps no separator: gluing the pieces back
      with the separator gives the string again, and no piece holds one. */
  lemma {:induction false} SplitJoin(s: string, sep: char)
    ensures Join(Split(s, sep), sep) == s
    ensures forall i :: 0 <= i < |Split(s, sep)| ==> sep !in Split(s, sep)[i]
    decreases |s|
  {
    if s != [] {
      var rest := Split(s[1..], sep);
      SplitJoin(s[1..], sep);
      var r := Split(s, sep);
      if s[0] == sep {
        assert r == [""] + rest;
        assert r[1..] == rest;
        assert Join(r, sep) == [sep] + Join(rest, sep);
      } else {
        assert r == [[s[0]] + rest[0]] + rest[1..];
        assert Join(r, sep) == [s[0]] + Join(rest, sep) by {
          if |rest| == 1 {
            assert r == [[s[0]] + rest[0]];
          } else {
            assert r[1..] == rest[1..];
          }
        }
        assert forall i :: 1 <= i < |r| ==> r[i] == rest[i];
      }
      assert [s[0]] + s[1..] == s;
    }
  }

  /** The inverse of Split: pieces glued back with the separator. */
  function Join(pieces: seq<string>, sep: char): string
    decreases |pieces|
  {
    if pieces == [] then ""
    else if |pieces| == 1 then pieces[0]
    else pieces[0] + [sep] + Join(pieces[1..], sep)
  }

  /** A string without the separator is one piece. */
  lemma {:induction false} SplitSingle(s: string, sep: char)
    requires sep !in s
    ensures Split(s, sep) == [s]
    decreases |s|
  {
    if s != [] {
      SplitSingle(s[1..], sep);
      assert [s[0]] + s[1..] == s;
    }
  }

  /** Splitting at a separator: the piece before it, then the pieces after. */
  lemma {:induction false} SplitAt(x: string, sep: char, y: string)
    requires sep !in x
    ensures Split(x + [sep] + y, sep) == [x] + Split(y, sep)
    decreases |x|
  {
    var s := x + [sep] + y;
    if x == [] {
      assert s[0] == sep && s[1..] == y;
    } else {
      assert s[0] == x[0] && s[1..] == x[1..] + [sep] + y;
      SplitAt(x[1..], sep, y);
      assert [x[0]] + x[1..] == x;
    }
  }

  /** Split's first step: a separator opens an empty piece, any other
      character joins the first piece of the rest. */
  lemma SplitCons(c: char, u: string, sep: char)
    ensures Split([c] + u, sep)
         == if c == sep then [""] + Split(u, sep) else [[c] + Split(u, sep)[0]] + Split(u, sep)[1..]
  {
    assert ([c] + u)[0] == c && ([c] + u)[1..] == u;
  }

  /** Splitting a concatenation: the finished pieces of `s`, then the pieces
      of its unfinished last piece followed by `t`. */
  lemma {:induction false} SplitAppend(s: string, t: string, sep: char)
    ensures
      var p := Split(s, sep);
      Split(s + t, sep) == p[..|p| - 1] + Split(p[|p| - 1] + t, sep)
    decreases |s|
  {
    if s == [] {
      assert s + t == t;
    } else {
      SplitAppend(s[1..], t, sep);
      SplitAppendCons(s[0], s[1..], t, sep);
      assert [s[0]] + s[1..] == s;
    }
  }

  /** The step of SplitAppend for a string with first character `c`. */
  lemma SplitAppendCons(c: char, u: string, t: string, sep: char)
    requires
      var r := Split(u, sep);
      Split(u + t, sep) == r[..|r| - 1] + Split(r[|r| - 1] + t, sep)
    ensures
      var p := Split([c] + u, sep);
      Split([c] + u + t, sep) == p[..|p| - 1] + Split(p[|p| - 1] + t, sep)
  {
    if c == sep {
      SplitAppendSeparator(c, u, t, sep);
    } else if |Split(u, sep)| == 1 {
      SplitAppendOnePiece(c, u, t, sep);
    } else {
      SplitAppendPieces(c, u, t, sep);
    }
  }

  lemma SplitAppendSeparator(c: char, u: string, t: string, sep: char)
    requires c == sep
    requires
      var r := Split(u, sep);
      Split(u + t, sep) == r[..|r| - 1] + Split(r[|r| - 1] + t, sep)
    ensures
      var p := Split([c] + u, sep);
      Split([c] + u + t, sep) == p[..|p| - 1] + Split(p[|p| - 1] + t, sep)
  {
    var r := Split(u, sep);
    var x := Split(r[|r| - 1] + t, sep);
    var p := Split([c] + u, sep);
    assert p == [""] + r by {
      SplitCons(c, u, sep);
    }
    SeparatorFirst(r, x);
    calc {
      Split([c] + u + t, sep);
      { assert [c] + u + t == [c] + (u + t); }
      Split([c] + (u + t), sep);
      { SplitCons(c, u + t, sep); }
      [""] + Split(u + t, sep);
      [""] + (r[..|r| - 1] + x);
      p[..|p| - 1] + x;
    }
  }

  lemma SplitAppendOnePiece(c: char, u: string, t: string, sep: char)
    requires c != sep && |Split(u, sep)| == 1
    requires
      var r := Split(u, sep);
      Split(u + t, sep) == r[..|r| - 1] + Split(r[|r| - 1] + t, sep)
    ensures
      var p := Split([c] + u, sep);
      Split([c] + u + t, sep) == p[..|p| - 1] + Split(p[|p| - 1] + t, sep)
  {
    var r := Split(u, sep);
    var x := Split(r[0] + t, sep);
    var p := Split([c] + u, sep);
    assert Split(u + t, sep) == x by {
      assert r[..|r| - 1] == [];
    }
    assert p == [[c] + r[0]] by {
      SplitCons(c, u, sep);
    }
    assert p[..|p| - 1] == [] && p[|p| - 1] == [c] + r[0];
    calc {
      Split([c] + u + t, sep);
      { assert [c] + u + t == [c] + (u + t); }
      Split([c] + (u + t), sep);
      { SplitCons(c, u + t, sep); }
      [[c] + x[0]] + x[1..];
      { SplitCons(c, r[0] + t, sep); }
      Split([c] + (r[0] + t), sep);
      { assert [c] + (r[0] + t) == [c] + r[0] + t; }
      Split([c] + r[0] + t, sep);
      [] + Split([c] + r[0] + t, sep);
    }
  }

  lemma SplitAppendPieces(c: char, u: string, t: string, sep: char)
    requires c != sep && |Split(u, sep)| > 1
    requires
      var r := Split(u, sep);
      Split(u + t, sep) == r[..|r| - 1] + Split(r[|r| - 1] + t, sep)
    ensures
      var p := Split([c] + u, sep);
      Split([c] + u + t, sep) == p[..|p| - 1] + Split(p[|p| - 1] + t, sep)
  {
    var r := Split(u, sep);
    var x := Split(r[|r| - 1] + t, sep);
    var q := r[..|r| - 1] + x;
    var p := Split([c] + u, sep);
    assert p == [[c] + r[0]] + r[1..] by {
      SplitCons(c, u, sep);
    }
    CharacterFirst([c], r, x);
    calc {
      Split([c] + u + t, sep);
      { assert [c] + u + t == [c] + (u + t); }
      Split([c] + (u + t), sep);
      { SplitCons(c, u + t, sep); }
      [[c] + Split(u + t, sep)[0]] + Split(u + t, sep)[1..];
      [[c] + q[0]] + q[1..];
      p[..|p| - 1] + x;
    }
  }

  lemma SeparatorFirst(r: seq<string>, x: seq<string>)
    requires |r| >= 1
    ensures
      var p := [""] + r;
      p[|p| - 1] == r[|r| - 1] && [""] + (r[..|r| - 1] + x) == p[..|p| - 1] + x
  {
    var p := [""] + r;
    assert p[..|p| - 1] == [""] + r[..|r| - 1];
  }

  lemma CharacterFirst(c: string, r: seq<string>, x: seq<string>)
    requires |r| >= 2
    ensures
      var p := [c + r[0]] + r[1..];
      var q := r[..|r| - 1] + x;
      p[|p| - 1] == r[|r| - 1] && [c + q[0]] + q[1..] == p[..|p| - 1] + x
  {
    var p := [c + r[0]] + r[1..];
    var q := r[..|r| - 1] + x;
    assert q[0] == r[0];
    assert q[1..] == r[1..|r| - 1] + x;
    assert p[..|p| - 1] == [c + r[0]] + r[1..|r| - 1];
  }

  /** A trailing separator adds one empty piece. */
  lemma SplitTrailing(x: string, sep: char)
    ensures Split(x + [sep], sep) == Split(x, sep) + [""]
  {
    var p := Split(x, sep);
    var last := p[|p| - 1];
    SplitJoin(x, sep);
    SplitAppend(x, [sep], sep);
    assert last + [sep] == last + [sep] + "";
    SplitAt(last, sep, "");
    assert p[..|p| - 1] + [last] == p;
  }

  /** Glues a sequence of strings together. */
  function Concat(ss: seq<string>): string
    decreases |ss|
  {
    if ss == [] then "" else ss[0] + Concat(ss[1..])
  }

  lemma {:induction false} ConcatAppend(a: seq<string>, b: seq<string>)
    ensures Concat(a + b) == Concat(a) + Concat(b)
    decreases |a|
  {
    if a == [] {
      assert a + b == b;
    } else {
      assert (a + b)[1..] == a[1..] + b;
      ConcatAppend(a[1..], b);
    }
  }

  /** The character of the decimal digit `d`. */
  function DigitChar(d: nat): (c: char)
    requires d < 10
    ensures '0' <= c <= '9' && c as int - '0' as int == d
  {
    ('0' as int + d) as char
  }

  /** `${n}` for a natural number: its decimal digits, most significant first. */
  function NatToString(n: nat): (r: string)
    ensures r != []
    ensures forall i :: 0 <= i < |r| ==> '0' <= r[i] <= '9'
    ensures n >= 10 <==> |r| >= 2
    decreases n
  {
    if n < 10 then [DigitChar(n)] else NatToString(n / 10) + [DigitChar(n % 10)]
  }

  /** Reads back a string of decimal digits. */
  function DecimalValue(s: string): nat
    requires forall i :: 0 <= i < |s| ==> '0' <= s[i] <= '9'
    decreases |s|
  {
    if s == [] then 0
    else 10 * DecimalValue(s[..|s| - 1]) + (s[|s| - 1] as int - '0' as int)
  }

  /** The decimal rendering loses nothing: reading it back gives the number. */
  lemma {:induction false} NatToStringRoundTrip(n: nat)
    ensures DecimalValue(NatToString(n)) == n
    decreases n
  {
    if n < 10 {
      DecimalAppend([], DigitChar(n));
      assert [] + [DigitChar(n)] == NatToString(n);
    } else {
      var high := NatToString(n / 10);
      DecimalAppend(high, DigitChar(n % 10));
      NatToStringRoundTrip(n / 10);
      assert 10 * (n / 10) + n % 10 == n;
    }
  }

  /** One more digit at the end multiplies the value by ten and adds it. */
  lemma DecimalAppend(s: string, c: char)
    requires forall i :: 0 <= i < |s| ==> '0' <= s[i] <= '9'
    requires '0' <= c <= '9'
    ensures DecimalValue(s + [c]) == 10 * DecimalValue(s) + (c as int - '0' as int)
  {
    var t := s + [c];
    assert t[..|t| - 1] == s;
    assert t[|t| - 1] == c;
  }
}

=== FILE: tools.dfy ===
/** The web search tool: one GET to SerpAPI's Google engine, its answer
    turned into plain text for the model. Every failure becomes an
    explanatory string, so the tool never throws. The environment key and
    the HTTP exchange are parameters. */
module Tools {
  import opened Types
  import Strings

  const ErrorWord := "Error"
  const PerformingSearch := " performing web search"
  const MissingKey := ErrorWord + KeyHelp
  const KeyHelp := ": SERPAPI_KEY environment variable is required for web search. Please configure it in your .env file. Get your API key at https://serpapi.com/"
  const Endpoint := "https://serpapi.com/search"
  const Engine := "google"
  const ResultCount: nat := 5
  const TimeoutMs: nat := 15000

  const HeaderOpen := "Search results for \""
  const HeaderClose := "\":"
  const NoResultsOpen := "No search results found for: \""
  const NoTitle := "No title"
  const StatusOpen := ErrorWord + PerformingSearch + " (Status "
  const StatusAdvice := ". Please check your SERPAPI_KEY."
  const GenericOpen := ErrorWord + PerformingSearch + " for: \""
  const GenericAdvice := "\". Please try again or check your SERPAPI_KEY configuration."

  /** The GET the tool issues: the endpoint, the query parameters
      `api_key`, `engine`, `q` and `num`, and the timeout in milliseconds. */
  datatype Request = Request(url: string, apiKey: string, engine: string, q: string, num: nat, timeoutMs: nat)

  /** One entry of `organic_results`. */
  datatype OrganicResult = OrganicResult(title: Option<string>, snippet: Option<string>, link: Option<string>)

  datatype AnswerBox = AnswerBox(answer: Option<string>, snippet: Option<string>, link: Option<string>)

  datatype KnowledgeGraph = KnowledgeGraph(title: Option<string>, description: Option<string>)

  /** The parts of SerpAPI's answer the tool reads; a missing
      `organic_results` reads as an empty list. */
  datatype SearchData = SearchData(
    organic: seq<OrganicResult>,
    answerBox: Option<AnswerBox>,
    knowledgeGraph: Option<KnowledgeGraph>)

  /** How the GET ends: with data, with an error response carrying a
      status (and perhaps an `error` field in its body), or with no response
      at all (network failure, timeout). */
  datatype HttpOutcome =
    | Received(data: SearchData)
    | StatusError(status: nat, error: Option<string>, message: string)
    | NoResponse(message: string)

  /** What one search does: the text handed back, and the request sent, if
      any. */
  datatype Search = Search(text: string, request: Option<Request>)

  // --------------------------------------------------------------- formatting

  /** `${prefix}${o}\n` when `o` is truthy, nothing otherwise. */
  function LineIf(prefix: string, o: Option<string>): string {
    if Truthy(o) then prefix + o.value + "\n" else ""
  }

  /** One numbered organic result followed by a blank line. */
  function Entry(n: nat, item: OrganicResult): string {
    Strings.NatToString(n) + ". " + (if Truthy(item.title) then item.title.value else NoTitle) + "\n"
    + LineIf("   ", item.snippet) + LineIf("   URL: ", item.link) + "\n"
  }

  /** The entries of `items`, numbered from `n`. */
  function Entries(items: seq<OrganicResult>, n: nat): string {
    Listing(Entry, items, n)
  }

  /** `items` rendered one after another by `entry`, numbered from `n`. */
  function Listing(entry: (nat, OrganicResult) -> string, items: seq<OrganicResult>, n: nat): string
    decreases |items|
  {
    if items == [] then "" else entry(n, items[0]) + Listing(entry, items[1..], n + 1)
  }

  /** `slice(0, 5)`. */
  function Shown(items: seq<OrganicResult>): (r: seq<OrganicResult>)
    ensures |r| <= ResultCount && |r| <= |items| && r == items[..|r|]
    ensures |items| <= ResultCount ==> r == items
    ensures |items| > ResultCount ==> r == items[..ResultCount]
  {
    if |items| <= ResultCount then items else items[..ResultCount]
  }

  function AnswerLines(box: AnswerBox): string {
    LineIf("Answer: ", box.answer) + LineIf("\n", box.snippet) + LineIf("\nSource: ", box.link)
  }

  function GraphLines(kg: KnowledgeGraph): string {
    LineIf("", kg.title) + LineIf("", kg.description)
  }

  /** Neither organic results, nor an answer box, nor a knowledge graph. */
  predicate NoResults(data: SearchData) {
    data.organic == [] && data.answerBox.None? && data.knowledgeGraph.None?
  }

  /** The first line of a result listing, without its trailing blank line. */
  function HeaderLine(q: string): string {
    HeaderOpen + q + HeaderClose
  }

  function NoResultsText(q: string): string {
    NoResultsOpen + q + "\""
  }

  /** What the tool appends after the header: organic results first, else
      the answer box, else the knowledge graph. */
  function Body(data: SearchData): string
    requires !NoResults(data)
  {
    if data.organic != [] then Entries(Shown(data.organic), 1)
    else if data.answerBox.Some? then AnswerLines(data.answerBox.value)
    else GraphLines(data.knowledgeGraph.value)
  }

  /** The text for a successful answer, trimmed. */
  function Format(q: string, data: SearchData): (r: string)
    ensures Strings.Trimmed(r)
  {
    Strings.Trim(if NoResults(data) then NoResultsText(q) else HeaderLine(q) + "\n\n" + Body(data))
  }

  /** The message for an error response: the body's `error` if truthy,
      else the transport's message. */
  function StatusText(status: nat, error: Option<string>, message: string): string {
    StatusOpen + Strings.NatToString(status) + "): " + (if Truthy(error) then error.value else message) + StatusAdvice
  }

  function GenericText(q: string): string {
    GenericOpen + q + GenericAdvice
  }

  function RequestFor(q: string, key: string): Request {
    Request(Endpoint, key, Engine, q, ResultCount, TimeoutMs)
  }

  /** `serpApiSearch(query)` with the environment's key `key` and the HTTP
      exchange `get`. */
  function SerpApiSearch(q: string, key: Option<string>, get: Request -> HttpOutcome): (r: Search)
    ensures r.request.Some? <==> Truthy(key)
    ensures r.request.Some? ==> r.request.value.apiKey == key.value && r.request.value.q == q
    ensures r.text != ""
    ensures !Truthy(key) ==> r.text == MissingKey
    ensures Truthy(key) ==>
      var outcome := get(RequestFor(q, key.value));
      && (outcome.Received? ==> r.text == Format(q, outcome.data))
      && (outcome.StatusError? ==> r.text == StatusText(outcome.status, outcome.error, outcome.message))
      && (outcome.NoResponse? ==> r.text == GenericText(q))
  {
    if !Truthy(key) then Search(MissingKey, None)
    else
      var req := RequestFor(q, key.value);
      var text :=
        match get(req)
        case Received(data) => (FormatNonEmpty(q, data); Format(q, data))
        case StatusError(status, error, message) => StatusText(status, error, message)
        case NoResponse(_) => GenericText(q);
      Search(text, Some(req))
  }

  /** `webSearch`: the exported name of the same search. */
  function WebSearch(q: string, key: Option<string>, get: Request -> HttpOutcome): (r: Search)
    ensures r == SerpApiSearch(q, key, get)
    ensures r.text != ""
  {
    SerpApiSearch(q, key, get)
  }

  /** The entries built one at a time, as the `forEach` over the first
      five results appends them. */
  method BuildEntries(items: seq<OrganicResult>) returns (s: string)
    ensures s == Entries(Shown(items), 1)
  {
    var shown := Shown(items);
    s := "";
    var i := 0;
    while i < |shown|
      invariant 0 <= i <= |shown|
      invariant s == Entries(shown[..i], 1)
    {
      EntriesAppend(shown[..i], shown[i], 1);
      assert shown[..i + 1] == shown[..i] + [shown[i]];
      s := s + Entry(i + 1, shown[i]);
      i := i + 1;
    }
    assert shown[..i] == shown;
  }

  // ------------------------------------------------------------------ lemmas

  /** Appending one result appends its entry, numbered after the others. */
  lemma EntriesAppend(items: seq<OrganicResult>, x: OrganicResult, n: nat)
    ensures Entries(items + [x], n) == Entries(items, n) + Entry(n + |items|, x)
  {
    ListingAppend(Entry, items, x, n);
  }

  lemma {:induction false} ListingAppend(entry: (nat, OrganicResult) -> string, items: seq<OrganicResult>, x: OrganicResult, n: nat)
    ensures Listing(entry, items + [x], n) == Listing(entry, items, n) + entry(n + |items|, x)
    decreases |items|
  {
    if items == [] {
      assert items + [x] == [x];
      assert [x][1..] == [];
    } else {
      assert (items + [x])[1..] == items[1..] + [x];
      ListingAppend(entry, items[1..], x, n + 1);
    }
  }

  lemma PrefixOf(p: string, t: string)
    ensures Strings.StartsWith(p + t, p)
  {
    assert (p + t)[..|p|] == p;
  }

  /** A successful answer never yields an empty text: a listing keeps its
      header line, and the no-results sentence has nothing to trim. */
  lemma FormatNonEmpty(q: string, data: SearchData)
    ensures Format(q, data) != ""
  {
    if NoResults(data) {
      NoResultsExact(q, data);
    } else {
      ListingKeepsHeader(q, data);
    }
  }

  /** With nothing to show, the text is exactly the no-results sentence. */
  lemma NoResultsExact(q: string, data: SearchData)
    requires NoResults(data)
    ensures Format(q, data) == NoResultsOpen + q + "\""
  {
    var t := NoResultsText(q);
    assert t[0] == 'N' && t[|t| - 1] == '"';
    Strings.TrimOfTrimmed(t);
  }

  /** With something to show, the text starts with the header naming the
      query: trimming only removes the trailing blank lines. */
  lemma ListingKeepsHeader(q: string, data: SearchData)
    requires !NoResults(data)
    ensures Strings.StartsWith(Format(q, data), HeaderOpen + q + HeaderClose)
  {
    var p := HeaderLine(q);
    assert p[0] == 'S' && p[|p| - 1] == ':';
    assert p + "\n\n" + Body(data) == p + ("\n\n" + Body(data));
    Strings.TrimKeepsPrefix(p, "\n\n" + Body(data));
  }

  /** Organic results win: when there are any, the answer box and the
      knowledge graph do not matter. */
  lemma OrganicWins(q: string, data: SearchData, box: Option<AnswerBox>, kg: Option<KnowledgeGraph>)
    requires data.organic != []
    ensures Format(q, data) == Format(q, data.(answerBox := box, knowledgeGraph := kg))
    ensures Format(q, data) == Strings.Trim(HeaderLine(q) + "\n\n" + Entries(Shown(data.organic), 1))
  {
  }

  /** Without organic results an answer box wins over the knowledge graph. */
  lemma AnswerBoxBeforeGraph(q: string, data: SearchData, kg: Option<KnowledgeGraph>)
    requires data.organic == [] && data.answerBox.Some?
    ensures Format(q, data) == Format(q, data.(knowledgeGraph := kg))
    ensures Format(q, data) == Strings.Trim(HeaderLine(q) + "\n\n" + AnswerLines(data.answerBox.value))
  {
  }

  /** With neither organic results nor an answer box, a knowledge graph is
      listed under the header: its title line first, then its description.
      It is not reported as "no results". */
  lemma GraphWhenNothingElse(q: string, data: SearchData)
    requires data.organic == [] && data.answerBox.None? && data.knowledgeGraph.Some?
    ensures Format(q, data) == Strings.Trim(HeaderLine(q) + "\n\n" + GraphLines(data.knowledgeGraph.value))
    ensures Strings.StartsWith(Format(q, data), HeaderOpen + q + HeaderClose)
    ensures Truthy(data.knowledgeGraph.value.title) ==>
      Strings.StartsWith(GraphLines(data.knowledgeGraph.value), data.knowledgeGraph.value.title.value + "\n")
  {
    GraphBody(data);
    ListingKeepsHeader(q, data);
    TitleFirst(data.knowledgeGraph.value);
  }

  lemma GraphBody(data: SearchData)
    requires data.organic == [] && data.answerBox.None? && data.knowledgeGraph.Some?
    ensures !NoResults(data) && Body(data) == GraphLines(data.knowledgeGraph.value)
  {
  }

  /** A truthy title is the first line of the knowledge graph's text. */
  lemma TitleFirst(kg: KnowledgeGraph)
    ensures Truthy(kg.title) ==> Strings.StartsWith(GraphLines(kg), kg.title.value + "\n")
  {
    if Truthy(kg.title) {
      assert LineIf("", kg.title) == kg.title.value + "\n";
      PrefixOf(kg.title.value + "\n", LineIf("", kg.description));
    }
  }

  /** At most five results are listed: what follows the fifth is ignored. */
  lemma FirstFive(q: string, data: SearchData, more: seq<OrganicResult>)
    requires |data.organic| >= ResultCount
    ensures Format(q, data) == Format(q, data.(organic := data.organic + more))
  {
    var longer := data.organic + more;
    assert longer[..ResultCount] == data.organic[..ResultCount];
  }

  /** An empty title, like a missing one, reads "No title". */
  lemma UntitledEntry(n: nat, item: OrganicResult)
    requires !Truthy(item.title)
    ensures Entry(n, item) == Entry(n, item.(title := Some(NoTitle)))
  {
  }

  /** The body's `error` is reported when it is truthy; otherwise the
      transport's message is, and then an empty `error` counts as none. */
  lemma StatusTextSource(status: nat, error: Option<string>, message: string, other: string)
    ensures Truthy(error) ==> StatusText(status, error, message) == StatusText(status, error, other)
    ensures !Truthy(error) ==> StatusText(status, error, message) == StatusText(status, None, message)
    ensures StatusText(status, error, message) != StatusText(status, error, message + "!")
      <==> !Truthy(error)
  {
  }

  /** A string keeps its prefixes when something is appended. */
  lemma ExtendPrefix(s: string, p: string, t: string)
    requires Strings.StartsWith(s, p)
    ensures Strings.StartsWith(s + t, p)
  {
    assert (s + t)[..|p|] == s[..|p|];
  }

  /** Every failure text starts with "Error". */
  lemma FailuresStartWithErrorWord(q: string, status: nat, error: Option<string>, message: string)
    ensures Strings.StartsWith(MissingKey, ErrorWord)
    ensures Strings.StartsWith(StatusText(status, error, message), ErrorWord)
    ensures Strings.StartsWith(GenericText(q), ErrorWord)
  {
    PrefixOf(ErrorWord, KeyHelp);
    PrefixOf(ErrorWord, PerformingSearch);
    ExtendPrefix(ErrorWord + PerformingSearch, ErrorWord, " (Status ");
    ExtendPrefix(ErrorWord + PerformingSearch, ErrorWord, " for: \"");
    var n := Strings.NatToString(status);
    var shown := if Truthy(error) then error.value else message;
    ExtendPrefix(StatusOpen, ErrorWord, n);
    ExtendPrefix(StatusOpen + n, ErrorWord, "): ");
    ExtendPrefix(StatusOpen + n + "): ", ErrorWord, shown);
    ExtendPrefix(StatusOpen + n + "): " + shown, ErrorWord, StatusAdvice);
    ExtendPrefix(GenericOpen, ErrorWord, q);
    ExtendPrefix(GenericOpen + q, ErrorWord, GenericAdvice);
  }

  /** No successful answer reads like a failure. */
  lemma FormatNotErrorWord(q: string, data: SearchData)
    ensures !Strings.StartsWith(Format(q, data), ErrorWord)
  {
    if NoResults(data) {
      NoResultsNotError(q, data);
    } else {
      ListingNotError(q, data);
    }
  }

  lemma NoResultsNotError(q: string, data: SearchData)
    requires NoResults(data)
    ensures !Strings.StartsWith(Format(q, data), ErrorWord)
  {
    NoResultsExact(q, data);
    SentenceNotError(q);
  }

  lemma SentenceNotError(q: string)
    ensures !Strings.StartsWith(NoResultsOpen + q + "\"", ErrorWord)
  {
    var p := NoResultsOpen + q + "\"";
    assert Strings.StartsWith(p, p) by {
      assert p[..|p|] == p;
    }
    OtherFirstLetter(p, p);
  }

  lemma ListingNotError(q: string, data: SearchData)
    requires !NoResults(data)
    ensures !Strings.StartsWith(Format(q, data), ErrorWord)
  {
    ListingKeepsHeader(q, data);
    OtherFirstLetter(Format(q, data), HeaderOpen + q + HeaderClose);
  }

  /** A text that starts with "Search results" or "No search results" does
      not start with "Error". */
  lemma OtherFirstLetter(f: string, p: string)
    requires Strings.StartsWith(f, p) && p != [] && p[0] in "SN"
    ensures !Strings.StartsWith(f, ErrorWord)
  {
    assert f[0] == p[0];
  }

  /** The text starts with "Error" exactly when the search failed: no key,
      an error response, or no response. Every result text starts with
      "Search results" or "No search results". */
  lemma FailureIffErrorWord(q: string, key: Option<string>, get: Request -> HttpOutcome)
    ensures Strings.StartsWith(SerpApiSearch(q, key, get).text, ErrorWord)
        <==> !(Truthy(key) && get(RequestFor(q, key.value)).Received?)
  {
    if !Truthy(key) {
      FailuresStartWithErrorWord(q, 0, None, "");
    } else {
      match get(RequestFor(q, key.value))
      case Received(data) =>
        FormatNotErrorWord(q, data);
      case StatusError(status, error, message) =>
        FailuresStartWithErrorWord(q, status, error, message);
      case NoResponse(_) =>
        FailuresStartWithErrorWord(q, 0, None, "");
    }
  }

  /** Without a key no request is sent and the text names the missing key;
      with one, the request asks Google through SerpAPI for five results
      of the query, with a 15 second timeout. */
  lemma RequestSent(q: string, key: Option<string>, get: Request -> HttpOutcome)
    ensures !Truthy(key) ==> SerpApiSearch(q, key, get) == Search(MissingKey, None)
    ensures Truthy(key) ==>
      SerpApiSearch(q, key, get).request
        == Some(Request("https://serpapi.com/search", key.value, "google", q, 5, 15000))
  {
  }
}

=== FILE: types.dfy ===
/** The data model shared by the server, the orchestrator and the example
    client: the event union of src/types.ts, the wider object the server
    may put on the wire, tool calls and the chat request. */
module Types {

  datatype Option<+T> = None | Some(value: T)

  /** JavaScript truthiness of an optional string: present and non-empty. */
  predicate Truthy(o: Option<string>) {
    o.Some? && o.value != ""
  }

  /** `StreamEventType`: the only three tags a StreamEvent can carry. */
  datatype StreamEventType = Reasoning | ToolInvocation | Response

  /** `output?: string | null` has three distinguishable states. */
  datatype Output = Absent | Null | Text(value: string)

  /** `StreamEvent`: a tag plus optional `content`, `tool`, `input` and `output`. */
  datatype StreamEvent = StreamEvent(
    kind: StreamEventType,
    content: Option<string>,
    tool: Option<string>,
    input: Option<string>,
    output: Output)

  /** What one server frame can carry: a StreamEvent, or the `{type: "error"}`
      object the server writes when iterating the generator throws. The
      latter is outside the StreamEvent union. */
  datatype WireEvent = Event(event: StreamEvent) | ErrorEvent(content: string)

  /** Tool arguments: the backend's string-keyed record, keys in order. */
  type Args = seq<(string, string)>

  /** `ToolCall`: a function name and its argument record. */
  datatype ToolCall = ToolCall(name: string, args: Args)

  /** The `query` field of a request body as it arrives: missing, a string,
      or a value of some other JSON type. */
  datatype QueryField = Missing | Given(s: string) | NotAString

  /** `ChatRequest`: the body of a `/chat` request. */
  datatype ChatRequest = ChatRequest(query: QueryField)

  /** `args[key]`, or None when the record has no such key. */
  function Get(args: Args, key: string): Option<string> {
    if args == [] then None
    else if args[0].0 == key then Some(args[0].1)
    else Get(args[1..], key)
  }

  /** An event carrying only text: a `reasoning` or a `response`. */
  function TextEvent(kind: StreamEventType, text: string): StreamEvent {
    StreamEvent(kind, Some(text), None, None, Absent)
  }

  /** A `tool_call` event for `tool` with `input`, carrying `output`. */
  function ToolEvent(tool: string, input: string, output: Output): StreamEvent {
    StreamEvent(ToolInvocation, None, Some(tool), Some(input), output)
  }

  /** The text of an event's `content`, empty when it has none. */
  function ContentOf(e: StreamEvent): string {
    match e.content
    case Some(c) => c
    case None => ""
  }

  /** The concatenated contents of a sequence of events. */
  function Transcript(events: seq<StreamEvent>): string {
    if events == [] then "" else ContentOf(events[0]) + Transcript(events[1..])
  }

  /** The `tool_call` events of a sequence, in order. */
  function ToolEvents(events: seq<StreamEvent>): seq<StreamEvent> {
    if events == [] then []
    else (if events[0].kind == ToolInvocation then [events[0]] else []) + ToolEvents(events[1..])
  }

  lemma {:induction false} TranscriptAppend(a: seq<StreamEvent>, b: seq<StreamEvent>)
    ensures Transcript(a + b) == Transcript(a) + Transcript(b)
  {
    if a == [] {
      assert a + b == b;
    } else {
      assert (a + b)[1..] == a[1..] + b;
      TranscriptAppend(a[1..], b);
    }
  }

  lemma {:induction false} ToolEventsAppend(a: seq<StreamEvent>, b: seq<StreamEvent>)
    ensures ToolEvents(a + b) == ToolEvents(a) + ToolEvents(b)
  {
    if a == [] {
      assert a + b == b;
    } else {
      var head := if a[0].kind == ToolInvocation then [a[0]] else [];
      calc {
        ToolEvents(a + b);
        { assert (a + b)[0] == a[0] && (a + b)[1..] == a[1..] + b; }
        head + ToolEvents(a[1..] + b);
        { ToolEventsAppend(a[1..], b); }
        head + (ToolEvents(a[1..]) + ToolEvents(b));
        (head + ToolEvents(a[1..])) + ToolEvents(b);
      }
    }
  }

  /** The `tool_call` events are exactly the members of the sequence that
      carry the `tool_call` tag. */
  lemma {:induction false} ToolEventsFilter(events: seq<StreamEvent>)
    ensures forall e :: e in ToolEvents(events) <==> e in events && e.kind == ToolInvocation
    decreases |events|
  {
    if events != [] {
      ToolEventsFilter(events[1..]);
      assert events == [events[0]] + events[1..];
    }
  }
}

=== FILE: wire.dfy ===
/** The framing both ends of the event stream agree on: each frame is a
    `data: ` line followed by a blank line, and the stream ends with the
    `[DONE]` marker in a frame of its own. */
module Wire {
  const DataPrefix := "data: "
  const DoneMarker := "[DONE]"

  /** The last write of a stream that ran to completion. */
  const DoneFrame := DataPrefix + DoneMarker + "\n\n"
}
